=== FILE: README.md ===
# Task-App sessions and ownership, modelled in Dafny

This project models the core of Task-App, an Express and Mongoose task manager. The core has three parts:

- the authentication middleware (`src/middleware/auth.js`);
- the user routes (`src/routers/user.js`): signup, login, logout, logout of every session, reading and patching one's own profile, and avatar upload, delete and download;
- the task routes (`src/routers/task.js`): create, list, patch and delete, each scoped to the caller's own tasks.

Every route is a pure function from a store and a request to an `Outcome`: a status, a body and the store afterwards. The store holds two sequences, users and tasks, in collection order. So a Mongoose `findOne` is "the first match" (`Seqs.FirstIndex`).

Code the repository calls but does not contain becomes fields of the `Env` parameter (`Model.Env`):

- `verify`: `jwt.verify`, which yields a user id or nothing;
- `sign`: `generateAuthToken`, which signs a user id at a clock reading;
- `passwordMatches`: the bcrypt comparison;
- `validUser` and `validTask`: the schema validators in the model files, which are not part of this model;
- `transcode`: the sharp resize-and-re-encode step.

The clock and the id generator come in through `App.Ambient`. `Model.SoundTokens` says that a signed token verifies as its user. It is assumed only by the lemmas that follow a freshly issued token back through the gate.

Modules, in dependency order:

- `Optional` and `Seqs`: the option type and sequence helpers (first match, filter, remove at an index).
- `Text`: the JavaScript string operations the routes and the task schema rely on: `replace` with a string pattern, `split`, `trim` with ECMAScript white space, and a suffix test.
- `Model`: users, tasks, the store, `Env`, and the store's well-formedness: unique user ids, unique emails, unique task ids, every owner stored.
- `Http`: statuses, bodies, responses.
- `Auth`: the gate.
- `UserRoutes` and `TaskRoutes`: the handlers.
- `App`: the router. Public routes skip the gate, and the others see the gate's context. It also holds the invariants every request keeps.
- `Sessions` and `Ownership`: the session lifecycle and ownership scoping across routes.
- `Scenarios`: the repository's test scenarios, restated as lemmas over the fixture store of tests/fixtures/db.js.

Two behaviours of the code are easy to misread, and the model keeps them as written:

- `Auth.BearerToken` does not require the `"Bearer "` prefix. It removes the first occurrence wherever it is, and a header without one is verified whole (src/middleware/auth.js:7). Such a header is treated exactly like `Bearer ` followed by it (`Auth.UnprefixedHeaderIsBearer`).
- `TaskRoutes.CompletedFilter` treats any non-empty `completed` value other than `"true"` as a request for incomplete tasks (src/routers/task.js:31-33).

## Model

| member | source | states |
|---|---|---|
| Auth.BearerToken | src/middleware/auth.js:7 | A header with no `"Bearer "` in it is the token unchanged; otherwise the token is seven characters shorter |
| Auth.BearerTokenOfHeader | src/middleware/auth.js:7 | `Bearer <t>` yields exactly `t` for every `t`, even one that itself contains `"Bearer "` |
| Auth.BearerTokenOnlyFirst | src/middleware/auth.js:7 | Only the first occurrence is removed: `Bearer Bearer t` yields `Bearer t` |
| Auth.BearerTokenWithoutPrefix | src/middleware/auth.js:7 | The prefix is not required: a header with no occurrence is the token as it is |
| Auth.UnprefixedHeaderIsBearer | src/middleware/auth.js:7-9 | A header with no `"Bearer "` in it gets the same gate outcome as `Bearer ` followed by it, for every store and path id |
| Auth.Authenticate | src/middleware/auth.js:5-23 | No header means denied. The gate grants exactly when the header's token verifies as an id and a stored user with that id still lists that exact token. When granted, the context's token is the extracted one and its user is stored, verified and lists it. A task in the context is stored, is the caller's, and has the path's id |
| Auth.GrantedUserIsTheOne | src/middleware/auth.js:9 | With unique user ids, the gate's user is the only stored user with its id |
| Model.FindUser | src/routers/user.js:138 | `findById` finds a position holding that id, and finds nothing exactly when no stored user has it |
| Model.FindOwnedTask | src/routers/task.js:89 | The `{ _id, owner }` lookup finds a task with both that id and that owner, and finds nothing exactly when no task has both |
| Model.FindOwnedTaskUnique | src/routers/task.js:89 | With unique task ids, looking up a stored task's id finds that task when the owner matches and nothing otherwise |
| Model.PutUser | src/routers/user.js:78 | Saving keeps the length, ids per position and the id set. Users with other ids are unchanged; positions with the saved id become the saved user (under unique ids); nothing else appears |
| Model.PutUserWellFormed | src/routers/user.js:78 | Saving a user whose email no other user holds keeps ids and emails unique and owners stored |
| Model.AppendTaskWellFormed | src/routers/task.js:15 | Appending a task with a new id and a stored owner keeps the store well formed |
| UserRoutes.AssignAll | src/routers/user.js:77 | Each profile field named among the keys takes the body's value, every other field keeps its value, and id, tokens and avatar never change |
| UserRoutes.NewUser | src/routers/user.js:11 | A new document has the given id, no tokens and no avatar. Its name, email and password are the body's when named and empty otherwise; its age is the body's when named, else 0 |
| UserRoutes.SaveUser | src/routers/user.js:78 | Only the user with the saved id may change, tasks do not; the saved user is stored if its id was; ids per position are kept |
| UserRoutes.Signup | src/routers/user.js:10-21 | 201 exactly when the document passes validation and the email index and its id is fresh. Then the store gains that one user, holding exactly one token, the one returned and signed for its id. Otherwise 400 and the store is unchanged |
| UserRoutes.FindByCredentials | src/routers/user.js:26 | An accepted login names a stored user with that email whose stored password matches |
| UserRoutes.FindByCredentialsIff | src/routers/user.js:26 | With unique emails, credentials are accepted exactly when some user has the email and the password matches; an unknown email and a wrong password fail alike |
| UserRoutes.Login | src/routers/user.js:24-32 | 200 exactly when the credentials are accepted. The user's token list becomes the old list plus exactly one token at the end, the one returned, and no other user or task changes. Bad credentials give 400 with the store unchanged |
| UserRoutes.Revoke | src/routers/user.js:37-39 | The presented token is gone from the list; every other token keeps its multiplicity; membership is "was there and differs" |
| UserRoutes.RevokeKeepsOrder | src/routers/user.js:37-39 | Revocation distributes over concatenation, so surviving tokens keep their relative order |
| UserRoutes.RevokeAbsent | src/routers/user.js:37-39 | A list without the token is left exactly as it is |
| UserRoutes.Logout | src/routers/user.js:35-46 | 200 with an empty body. The caller's stored user becomes the caller with the token revoked, and no other user or task changes |
| UserRoutes.LogoutAll | src/routers/user.js:49-58 | 200 with an empty body. The caller's stored user has an empty token list, and no other user or task changes |
| UserRoutes.ReadProfile | src/routers/user.js:61-63 | 200 and the store is unchanged |
| UserRoutes.UpdateProfile | src/routers/user.js:66-88 | A key outside {name, age, email, password} gives 400 `Invalid updates!` with nothing changed. Otherwise 200 exactly when the assigned document saves; only the named fields change and only the caller's user is rewritten. A failed save gives 400 with the store unchanged |
| UserRoutes.EndsWithMatches | src/routers/user.js:110 | A name ending in a dot and an allowed extension matches the pattern |
| UserRoutes.MatchesEndsWith | src/routers/user.js:110 | A pattern match at a dot means the name ends in `.jpg`, `.jpeg` or `.png` |
| UserRoutes.ImageFileNameIsPattern | src/routers/user.js:110 | The suffix test is exactly what `/\.(jpg\|jpeg\|png)$/` matches |
| UserRoutes.UpperCaseExtensionRefused | src/routers/user.js:110 | The filter is case-sensitive: `me.JPG` is refused and `me.jpg` accepted |
| UserRoutes.UploadAvatar | src/routers/user.js:105-126 | 200 exactly when the name passes the filter and the file is at most 1,000,000 bytes. A refused name gives 400 `Please upload an image file!`; any 400 leaves the store unchanged. On 200 the caller's avatar is the transcoded file and only the caller changes |
| UserRoutes.DeleteAvatar | src/routers/user.js:129-133 | 200. The caller's stored user has no avatar, and only the caller changes |
| UserRoutes.ReadAvatar | src/routers/user.js:136-149 | 404 exactly when no user has the id or that user has no avatar; otherwise 200 with that user's stored bytes. Nothing is written |
| TaskRoutes.NewTask | src/routers/task.js:9-12 | The owner is the caller whatever the body says; the id is the body's `_id` when it names one and a fresh id otherwise; `completed` is false unless the body sets it; the description is the trimmed body value, empty when absent. The trim and the `completed` default are the task schema's rules, not the route's |
| TaskRoutes.CreateTask | src/routers/task.js:8-20 | 201 exactly when the document built from the body validates and its id is unused. The response then carries exactly that document: owned by the caller, `completed` false unless the body sets it, description trimmed. It is the one task appended. Otherwise 400 with the store unchanged |
| TaskRoutes.BlankDescriptionRefused | src/routers/task.js:14-19 | A missing or all-white-space description gives 400 and stores nothing, whatever else the body holds |
| TaskRoutes.CompletedFilter | src/routers/task.js:31-33 | There is no filter exactly when the query is absent or empty |
| TaskRoutes.CompletedFilterValues | src/routers/task.js:31-33 | `"true"` selects completed tasks; `"false"`, `"yes"` and `"True"` select incomplete ones; `""` filters nothing |
| TaskRoutes.SortOrderOf | src/routers/task.js:35-38 | There is no sort exactly when `sortBy` is absent or empty; the direction is always 1 or -1; the field never contains `:` |
| TaskRoutes.SortOrderOfFieldAndDirection | src/routers/task.js:35-38 | `field:dir` followed by any further `:` pieces sorts on `field`, at -1 exactly when `dir` is `desc`; the further pieces are ignored |
| TaskRoutes.SortOrderOfFieldOnly | src/routers/task.js:35-38 | A bare field name sorts ascending on it |
| TaskRoutes.ListTasks | src/routers/task.js:27-55 | 200 and nothing is written. A task is listed exactly when it is stored, is the caller's and passes the `completed` filter, with its stored multiplicity; the sort is the parse of `sortBy` |
| TaskRoutes.Edit | src/routers/task.js:94 | A patch never changes a task's id or owner |
| TaskRoutes.UpdateTask | src/routers/task.js:79-100 | A key outside {description, completed} gives 400 `Invalid update!`. Otherwise 404 exactly when the caller owns no task with that id; for an owned task, 200 exactly when the patched document passes the schema, and 400 otherwise. On 200 only the named fields change, the description trimmed by the schema's rule, and only that task is rewritten. Every non-200 leaves the store unchanged |
| TaskRoutes.DeleteTask | src/routers/task.js:103-119 | 404 exactly when the caller owns no task with that id, and then the store is unchanged. On 200 exactly one position, holding the returned task, is removed and users are unchanged |
| Text.IndexOfFrom | src/middleware/auth.js:7 | The search finds the first occurrence at or after the start, and finds nothing exactly when there is none |
| Text.IndexOf | src/middleware/auth.js:7 | The first occurrence of the pattern, or nothing when there is none |
| Text.FirstOccurrenceSplits | src/middleware/auth.js:7 | When the string is `a + pat + b` with no occurrence starting inside `a`, the first occurrence is at the end of `a`, and `a` and `b` are what lies around it |
| Text.ReplaceFirst | src/middleware/auth.js:7 | With no occurrence the string is unchanged. When the string is `a + pat + b` and no occurrence starts inside `a`, the result is `a + rep + b`: the first occurrence is replaced, and later ones are kept |
| Text.ReplaceFirstAt | src/middleware/auth.js:7 | When the first occurrence is right after `a`, replacing it yields `a + replacement + rest` |
| Text.TrimStart | tests/task.test.js:22-30 | The result is a suffix; what is cut is white space; it does not start with white space |
| Text.TrimEnd | tests/task.test.js:22-30 | The result is a prefix; what is cut is white space; it does not end with white space |
| Text.Trim | tests/task.test.js:22-30 | The task schema's trim, on which refusing a white-space description rests. The result is a middle slice with only white space cut on both sides, and it neither starts nor ends with white space |
| Text.TrimBothEnds | tests/task.test.js:22-30 | Trimming the start and then the end leaves such a middle slice |
| Text.TrimEmptyIffBlank | tests/task.test.js:22-30 | A string trims to empty exactly when it is all white space |
| Text.Split | src/routers/task.js:36 | At least one piece, no piece contains the separator, and joining the pieces with it gives back the string |
| Text.SplitNoSep | src/routers/task.js:36 | A string without the separator splits into itself alone |
| Text.SplitAtFirst | src/routers/task.js:36 | `a + sep + b` with no separator in `a` splits into `a` followed by the pieces of `b` |
| Text.SplitJoin | src/routers/task.js:36 | Joining the pieces of a split restores the string |
| Seqs.FirstIndex | src/middleware/auth.js:9 | The found position satisfies the predicate and no earlier one does; nothing is found exactly when no element satisfies it |
| Seqs.Filter | src/routers/user.js:37-39 | An element is kept exactly when it was there and satisfies the predicate; the result is no longer than the input |
| Seqs.FilterConcat | src/routers/user.js:37-39 | Filtering distributes over concatenation, which keeps the survivors in order |
| Seqs.FilterCount | src/routers/user.js:37-39 | Each kept element keeps its multiplicity, and each dropped element has none |
| Seqs.FilterCountAll | src/routers/user.js:37-39 | The multiplicity statement, for every element at once |
| Seqs.FilterAll | src/routers/user.js:37-39 | When every element satisfies the predicate, filtering changes nothing |
| Seqs.RemoveAt | src/routers/task.js:105 | One shorter, earlier positions unchanged, later ones shifted down by one |
| Seqs.RemoveAtKeeps | src/routers/task.js:105 | Removing one position keeps every element at another position |
| Sessions.ListedIffHeld | src/middleware/auth.js:9 | With unique ids, a token is listed under a stored user's id exactly when that user holds it |
| Sessions.ListedAfterSave | src/routers/user.js:40 | After saving a stored user, a token is listed under the saved id exactly when the saved user holds it, and under other ids exactly as before |
| Sessions.GateAfterSave | src/routers/user.js:40 | After such a save, the gate grants a header exactly when its token verifies and is listed under that id in the saved store |
| Sessions.LogoutEndsOnlyThatSession | src/routers/user.js:35-46 | After logout the gate grants a header exactly when it granted it before and its token is not the one logged out. That token fails even though its signature still verifies |
| Sessions.LogoutAllEndsEverySession | src/routers/user.js:49-58 | After logging out everywhere, the gate grants a header exactly when it granted it before and its token does not verify as the caller |
| Sessions.LoginOpensSession | src/routers/user.js:24-32 | The token a login returns opens a session for the returned user at once, and every session live before stays live |
| Sessions.SignupOpensSession | src/routers/user.js:10-21 | The token a signup returns opens a session for the new user at once, and every session live before stays live |
| Ownership.OwnsTaskIff | src/routers/task.js:89 | With unique task ids, the caller owns a task with a stored task's id exactly when it owns that task |
| Ownership.GateTaskIsOwned | src/middleware/auth.js:10 | The gate hands the route the path's task when the caller owns it, and nothing otherwise |
| Ownership.ForeignTaskUnreachable | src/routers/task.js:79-119 | Patching another user's task gives 404, or 400 for a key outside the allow-list; deleting it gives 404; both leave the store unchanged |
| Ownership.OwnTaskPatched | src/routers/task.js:89-96 | The owner's allowed patch that the schema accepts gets 200 with the patched task; the patched task is stored and every other task stays stored |
| Ownership.OwnTaskDeleted | src/routers/task.js:105-111 | The owner's delete succeeds, removes that task, and keeps every other task |
| Ownership.ListShowsOnlyOwnTasks | src/routers/task.js:41-51 | Every listed task is stored and belongs to the caller, whatever the query |
| App.Handle | src/middleware/auth.js:5-23 | 401 exactly when the route needs a session and the header presents no live one; a 401 always carries `Authentication required!` and changes nothing. Signup, login and avatar download skip the gate. A refused request gets `Auth.Refusal`'s fixed answer, and a granted one goes to its handler through `App.Dispatch` |
| App.HandleGated | src/middleware/auth.js:16-19 | A request the gate lets through is its handler run on the gate's context |
| App.SaveKeepsWellFormed | src/routers/user.js:78 | Saving a stored user with unchanged id and email keeps the store well formed |
| App.SignupKeepsWellFormed | src/routers/user.js:10-21 | Signup keeps user ids and emails unique and owners stored |
| App.CreateTaskKeepsWellFormed | src/routers/task.js:8-20 | Creating a task keeps the store well formed |
| App.UpdateTaskKeepsWellFormed | src/routers/task.js:79-100 | Patching a task keeps the store well formed |
| App.DeleteTaskKeepsWellFormed | src/routers/task.js:103-119 | Deleting a task keeps the store well formed |
| App.DispatchKeepsWellFormed | src/middleware/auth.js:16-19 | Every gated handler, run on a stored caller, keeps the store well formed |
| App.HandleKeepsWellFormed | src/middleware/auth.js:5-23 | Every request of every route keeps a well-formed store well formed |
| App.SaveSameTokensKeepsSessions | src/routers/user.js:121-122 | Saving a stored user without touching its tokens changes no session |
| App.DispatchKeepsSessions | src/routers/user.js:66-133 | Behind the gate, profile, avatar and task handlers leave every session as it was |
| App.SessionsChangeOnlyOnTokenRoutes | src/routers/user.js:10-58 | Only signup, login, logout and logout-all change which headers the gate grants |
| App.OthersTasksUntouched | src/routers/task.js:79-119 | No request removes or changes a task that does not belong to the acting user |
| App.NewTasksBelongToActor | src/routers/task.js:9-12 | Every task a request adds or rewrites belongs to the acting user |
| Scenarios.FixtureWellFormed | tests/fixtures/db.js:6-57 | The fixture store of two users and three tasks is well formed |
| Scenarios.FixtureGate | tests/user.test.js:84-90 | Each fixture user's `Bearer` header is granted with that user and token, and with no task when the path names none of theirs |
| Scenarios.FixtureHandle | tests/user.test.js:84-90 | A fixture user's gated request is its handler run on that user's session |
| Scenarios.ProfileNeedsSession | tests/user.test.js:92-97 | Reading the profile without a header is 401 `Authentication required!` with the store unchanged |
| Scenarios.ShownCount | tests/task.test.js:44-51 | A list whose multiplicities match the expected tasks has the expected length |
| Scenarios.FetchUserTasks | tests/task.test.js:44-51 | The first user lists exactly two tasks |
| Scenarios.FetchOnlyCompleted | tests/task.test.js:76-83 | With `completed=true` the first user lists one task |
| Scenarios.FetchOnlyIncomplete | tests/task.test.js:85-92 | With `completed=false` the second user lists no task |
| Scenarios.CannotDeleteOthersTask | tests/task.test.js:124-133 | The second user's delete of the first user's task is 404 and the store is unchanged |
| Scenarios.CannotUpdateOthersTask | tests/task.test.js:156-167 | The second user's patch of the first user's task is 404 and the store is unchanged |
| Scenarios.UnknownProfileFieldRejected | tests/user.test.js:181-189 | A profile patch naming `location` is 400 `Invalid updates!` with the store unchanged |
| Scenarios.BlankTaskRefused | tests/task.test.js:22-30 | A task whose description is white space is refused with 400 and nothing stored |
| Scenarios.LoginStoresSecondToken | tests/user.test.js:65-74 | Logging in with the fixture password gives 200, and the user's tokens become the fixture token followed by the returned one |

## Left out

- DELETE /users/me (src/routers/user.js:91-103): `req.user.remove()` and the cascade delete of tasks live in the user model file, which is not part of this model.
- GET /tasks/:id (src/routers/task.js:58-76): its filter uses the key `id` instead of `_id`. Whether that matches anything depends on Mongoose's strict-query setting, which the code does not show.
- The missing `return` after the 404 in DELETE /tasks/:id (src/routers/task.js:107-109). The client still sees the 404; the second `send` only raises an error after the response has gone. The model answers 404.
- The cast-error branches testing `e.value.length != 24` and malformed ObjectIds: ids are natural numbers here.
- Paging with `limit` and `skip` (src/routers/task.js:45-46), and the database's sort itself. `ListTasks` returns the filtered tasks in collection order, together with the parsed sort order.
- JSON type coercion: bodies and queries are typed. A `completed` of the wrong type and a repeated query parameter are not modelled, so the schema's cast failures appear only through `validTask` and `validUser`.
- Password hashing, email normalisation and the remaining field validators: they live in the user and task models and are represented by `Env.passwordMatches`, `Env.validUser` and `Env.validTask`. `validUser` runs on signup and on PATCH /users/me, and `validTask` runs on task create and patch. The saves after login, logout, logout-all, avatar upload and avatar delete are assumed to pass.
- TaskRoutes.NewTask, TaskRoutes.Saves, TaskRoutes.Edit: three rules of the task schema are assumed rather than read from the code, because the task model file is not part of this model: the description is trimmed, it is required and non-empty, and `completed` defaults to false. The routes store the body's values as they are (src/routers/task.js:9-12, 94), and the tests agree with these rules (tests/task.test.js:17-19, 22-30, 143-154).
- UserRoutes.Saves, UserRoutes.EmailFree: the unique index on `email` is assumed from the user schema, which is not part of this model. The model refuses a save that would duplicate an email. No test in the repository exercises this rule.
- UserRoutes.Signup: mass assignment of `tokens` or `avatar` through the signup body is not modelled; a body carries only the four profile fields.
- Outbound email (src/emails/account.js): fire-and-forget, with no effect on the store or the response.
- Image transcoding and multipart parsing: `Env.transcode` stands for sharp. An upload without a file is not modelled, because what happens depends on the Express version.
- The middleware's task lookup on routes without an `:id` parameter: no route reads that task, so the model passes none.
- Server errors (500) from the database, and the read-modify-write races between concurrent requests on the same user: the model is sequential, and a save fails only where a validator above refuses it.
- UserRoutes.ReadProfile: the contract does not state the profile body, which is just the gate's user.
- Scenarios.UnknownProfileFieldRejected and Scenarios.BlankTaskRefused: stated for every body with the offending key or blank description rather than for the tests' literal bodies. The literal versions are instances.
- Token uniqueness: two logins at the same clock reading may be issued the same token; whether that happens is up to `Env.sign`.

=== FILE: app.dfy ===
/** The whole route table as one transition `(store, request) -> (response, store)`,
    with the gate in front of every route that needs a session. */
module App {
  import opened Optional
  import opened Model
  import opened Http
  import opened Auth
  import Seqs
  import UserRoutes
  import TaskRoutes
  import Sessions

  datatype Request =
    | Signup(profile: UserRoutes.ProfileBody)
    | Login(email: string, password: string)
    | Logout
    | LogoutAll
    | ReadProfile
    | UpdateProfile(profile: UserRoutes.ProfileBody)
    | UploadAvatar(file: UserRoutes.Upload)
    | DeleteAvatar
    | ReadAvatar(userId: UserId)
    | CreateTask(task: TaskRoutes.TaskBody)
    | ListTasks(completed: Option<string>, sortBy: Option<string>)
    | UpdateTask(taskId: TaskId, patch: TaskRoutes.TaskPatch)
    | DeleteTask(taskId: TaskId)

  /** What the request gets from outside the store: the clock reading tokens are
      signed at, and the id the driver generates for a new document. */
  datatype Ambient = Ambient(now: nat, freshId: nat)

  /** The routes mounted without the gate. */
  predicate Public(req: Request) {
    req.Signup? || req.Login? || req.ReadAvatar?
  }

  /** The `:id` path parameter the gate sees. */
  function PathId(req: Request): Option<TaskId> {
    if req.UpdateTask? || req.DeleteTask? then Some(req.taskId) else None
  }

  /** The route handlers behind the gate. */
  function Dispatch(env: Env, store: Store, amb: Ambient, ctx: Context, req: Request): Outcome
    requires !Public(req)
  {
    match req
    case Logout => UserRoutes.Logout(store, ctx)
    case LogoutAll => UserRoutes.LogoutAll(store, ctx)
    case ReadProfile => UserRoutes.ReadProfile(store, ctx)
    case UpdateProfile(profile) => UserRoutes.UpdateProfile(env, store, ctx, profile)
    case UploadAvatar(file) => UserRoutes.UploadAvatar(env, store, ctx, file)
    case DeleteAvatar => UserRoutes.DeleteAvatar(store, ctx)
    case CreateTask(task) => TaskRoutes.CreateTask(env, store, ctx, task, amb.freshId)
    case ListTasks(completed, sortBy) => TaskRoutes.ListTasks(store, ctx, completed, sortBy)
    case UpdateTask(taskId, patch) => TaskRoutes.UpdateTask(env, store, ctx, taskId, patch)
    case DeleteTask(taskId) => TaskRoutes.DeleteTask(store, ctx, taskId)
  }

  /** One request against the store. Every gated route answers 401 with the same body
      exactly when the presented session is not live, and then writes nothing; no
      route answers 401 for any other reason. */
  function Handle(env: Env, store: Store, amb: Ambient, authorization: Option<string>, req: Request): (o: Outcome)
    ensures o.response.status == Unauthorized ==> o.response.body == Error(AuthFailure) && o.store == store
    ensures o.response.status == Unauthorized <==>
      !Public(req) && !(authorization.Some? && LiveSession(env, store, authorization.value))
  {
    match req
    case Signup(profile) => UserRoutes.Signup(env, store, profile, amb.freshId, amb.now)
    case Login(email, password) => UserRoutes.Login(env, store, email, password, amb.now)
    case ReadAvatar(id) => UserRoutes.ReadAvatar(store, id)
    case _ =>
      match Authenticate(env, store, authorization, PathId(req))
      case Denied => Refusal(store)
      case Granted(ctx) => Dispatch(env, store, amb, ctx, req)
  }

  /** A gated request the gate lets through is its handler run on the gate's context. */
  lemma HandleGated(env: Env, store: Store, amb: Ambient, authorization: Option<string>, req: Request, ctx: Context)
    requires !Public(req) && Authenticate(env, store, authorization, PathId(req)) == Granted(ctx)
    ensures Handle(env, store, amb, authorization, req) == Dispatch(env, store, amb, ctx, req)
  {
  }

  /** The user the request acts as: the gate's user on gated routes, nobody on the
      public ones or when the gate refuses. */
  function Actor(env: Env, store: Store, authorization: Option<string>, req: Request): Option<UserId> {
    if Public(req) then None
    else
      match Authenticate(env, store, authorization, PathId(req))
      case Denied => None
      case Granted(ctx) => Some(ctx.user.id)
  }

  /** Saving a stored user with a change that keeps its id and email keeps the store
      well formed. */
  lemma SaveKeepsWellFormed(s: Store, v: User, u: User)
    requires WellFormed(s)
    requires v in s.users && u.id == v.id && u.email == v.email
    ensures WellFormed(UserRoutes.SaveUser(s, u))
  {
    forall w | w in s.users && w.id != u.id ensures w.email != u.email {
      var i :| 0 <= i < |s.users| && s.users[i] == v;
      var j :| 0 <= j < |s.users| && s.users[j] == w;
      assert i != j;
    }
    PutUserWellFormed(s, u);
  }

  /** A successful signup keeps the store well formed. */
  lemma SignupKeepsWellFormed(env: Env, store: Store, body: UserRoutes.ProfileBody, freshId: UserId, now: nat)
    requires WellFormed(store)
    ensures WellFormed(UserRoutes.Signup(env, store, body, freshId, now).store)
  {
    var o := UserRoutes.Signup(env, store, body, freshId, now);
    if o.response.status == Created {
      var u := o.response.body.user;
      var users := o.store.users;
      forall i, j | 0 <= i < j < |users| ensures users[i].id != users[j].id && users[i].email != users[j].email {
        if j == |store.users| {
          assert store.users[i] in store.users;
        }
      }
      forall t | t in o.store.tasks ensures t.owner in UserIds(users) {
        var w :| w in store.users && w.id == t.owner;
        assert w in users;
      }
    }
  }

  /** Creating a task keeps the store well formed. */
  lemma CreateTaskKeepsWellFormed(env: Env, store: Store, ctx: Context, body: TaskRoutes.TaskBody, freshId: TaskId)
    requires WellFormed(store) && ctx.user in store.users
    ensures WellFormed(TaskRoutes.CreateTask(env, store, ctx, body, freshId).store)
  {
    var o := TaskRoutes.CreateTask(env, store, ctx, body, freshId);
    if o.response.status == Created {
      var t := o.response.body.task;
      assert forall w :: w in store.tasks ==> w.id in TaskIds(store.tasks);
      assert ctx.user.id in UserIds(store.users);
      AppendTaskWellFormed(store, t);
    }
  }

  /** Patching a task keeps the store well formed. */
  lemma UpdateTaskKeepsWellFormed(env: Env, store: Store, ctx: Context, id: TaskId, patch: TaskRoutes.TaskPatch)
    requires WellFormed(store)
    ensures WellFormed(TaskRoutes.UpdateTask(env, store, ctx, id, patch).store)
  {
    var o := TaskRoutes.UpdateTask(env, store, ctx, id, patch);
    if o.response.status == Ok {
      var i := FindOwnedTask(store.tasks, id, ctx.user.id).value;
      assert o.store.tasks == store.tasks[i := o.response.body.task];
      forall w | w in o.store.tasks ensures w.owner in UserIds(store.users) {
        var j :| 0 <= j < |o.store.tasks| && o.store.tasks[j] == w;
        assert j != i ==> store.tasks[j] in store.tasks;
        assert store.tasks[i] in store.tasks;
      }
    }
  }

  /** Deleting a task keeps the store well formed. */
  lemma DeleteTaskKeepsWellFormed(store: Store, ctx: Context, id: TaskId)
    requires WellFormed(store)
    ensures WellFormed(TaskRoutes.DeleteTask(store, ctx, id).store)
  {
    var o := TaskRoutes.DeleteTask(store, ctx, id);
    if o.response.status == Ok {
      var i := FindOwnedTask(store.tasks, id, ctx.user.id).value;
      var rest := Seqs.RemoveAt(store.tasks, i);
      assert o.store.tasks == rest;
      forall a, b | 0 <= a < b < |rest| ensures rest[a].id != rest[b].id {
        if b < i {
        } else if a < i {
        } else {
        }
      }
      forall w | w in rest ensures w.owner in UserIds(store.users) {
        var j :| 0 <= j < |rest| && rest[j] == w;
        assert j < i ==> store.tasks[j] in store.tasks;
        assert j >= i ==> store.tasks[j + 1] in store.tasks;
      }
    }
  }

  /** Every gated route keeps the store well formed. */
  lemma DispatchKeepsWellFormed(env: Env, store: Store, amb: Ambient, ctx: Context, req: Request)
    requires WellFormed(store) && ctx.user in store.users && !Public(req)
    ensures WellFormed(Dispatch(env, store, amb, ctx, req).store)
  {
    var u := ctx.user;
    match req
    case Logout =>
      SaveKeepsWellFormed(store, u, u.(tokens := UserRoutes.Revoke(u.tokens, ctx.token)));
    case LogoutAll =>
      SaveKeepsWellFormed(store, u, u.(tokens := []));
    case ReadProfile =>
    case UpdateProfile(profile) =>
      var o := UserRoutes.UpdateProfile(env, store, ctx, profile);
      if o.response.status == Ok {
        PutUserWellFormed(store, o.response.body.user);
      }
    case UploadAvatar(file) =>
      if UserRoutes.UploadAvatar(env, store, ctx, file).response.status == Ok {
        SaveKeepsWellFormed(store, u, u.(avatar := Some(env.transcode(file.buffer))));
      }
    case DeleteAvatar =>
      SaveKeepsWellFormed(store, u, u.(avatar := None));
    case ListTasks(_, _) =>
    case CreateTask(body) =>
      CreateTaskKeepsWellFormed(env, store, ctx, body, amb.freshId);
    case UpdateTask(id, patch) =>
      UpdateTaskKeepsWellFormed(env, store, ctx, id, patch);
    case DeleteTask(id) =>
      DeleteTaskKeepsWellFormed(store, ctx, id);
  }

  /** Every request leaves a well-formed store well formed: user ids, emails and task
      ids stay unique and every task's owner stays a stored user. */
  lemma HandleKeepsWellFormed(env: Env, store: Store, amb: Ambient, authorization: Option<string>, req: Request)
    requires WellFormed(store)
    ensures WellFormed(Handle(env, store, amb, authorization, req).store)
  {
    if req.Signup? {
      SignupKeepsWellFormed(env, store, req.profile, amb.freshId, amb.now);
    } else if req.Login? {
      var o := UserRoutes.Login(env, store, req.email, req.password, amb.now);
      if o.response.status == Ok {
        var before := store.users[UserRoutes.FindByCredentials(env, store.users, req.email, req.password).value];
        SaveKeepsWellFormed(store, before, o.response.body.user);
      }
    } else if !req.ReadAvatar? {
      var gate := Authenticate(env, store, authorization, PathId(req));
      if gate.Granted? {
        DispatchKeepsWellFormed(env, store, amb, gate.ctx, req);
      }
    }
  }

  /** Saving a stored user without touching its tokens changes no session. */
  lemma SaveSameTokensKeepsSessions(env: Env, s: Store, v: User, u: User, header: string, taskId: Option<TaskId>)
    requires UniqueUserIds(s.users)
    requires v in s.users && u.id == v.id && u.tokens == v.tokens
    ensures Authenticate(env, UserRoutes.SaveUser(s, u), Some(header), taskId).Granted? <==>
      Authenticate(env, s, Some(header), taskId).Granted?
  {
    assert u.id in UserIds(s.users);
    Sessions.GateAfterSave(env, s, u, header, taskId);
    Sessions.ListedIffHeld(s.users, v, BearerToken(header));
  }

  /** Behind the gate, profile, avatar and task handlers leave every session as it
      was: the users they save keep their tokens. */
  lemma DispatchKeepsSessions(env: Env, store: Store, amb: Ambient, ctx: Context, req: Request,
                              header: string, taskId: Option<TaskId>)
    requires UniqueUserIds(store.users)
    requires ctx.user in store.users
    requires !Public(req) && !(req.Logout? || req.LogoutAll?)
    ensures var after := Dispatch(env, store, amb, ctx, req).store;
      Authenticate(env, after, Some(header), taskId).Granted? <==> Authenticate(env, store, Some(header), taskId).Granted?
  {
    var u := ctx.user;
    var o := Dispatch(env, store, amb, ctx, req);
    if req.UpdateProfile? && o.response.status == Ok {
      SaveSameTokensKeepsSessions(env, store, u, o.response.body.user, header, taskId);
    } else if req.UploadAvatar? && o.response.status == Ok {
      SaveSameTokensKeepsSessions(env, store, u, u.(avatar := Some(env.transcode(req.file.buffer))), header, taskId);
    } else if req.DeleteAvatar? {
      SaveSameTokensKeepsSessions(env, store, u, u.(avatar := None), header, taskId);
    }
  }

  /** Only signup, login, logout and logout of every session change which sessions
      the gate accepts; profile, avatar and task requests leave them all as they were. */
  lemma SessionsChangeOnlyOnTokenRoutes(env: Env, store: Store, amb: Ambient, authorization: Option<string>,
                                        req: Request, header: string, taskId: Option<TaskId>)
    requires UniqueUserIds(store.users)
    requires !(req.Signup? || req.Login? || req.Logout? || req.LogoutAll?)
    ensures var after := Handle(env, store, amb, authorization, req).store;
      Authenticate(env, after, Some(header), taskId).Granted? <==> Authenticate(env, store, Some(header), taskId).Granted?
  {
    if !req.ReadAvatar? {
      var gate := Authenticate(env, store, authorization, PathId(req));
      if gate.Granted? {
        HandleGated(env, store, amb, authorization, req, gate.ctx);
        DispatchKeepsSessions(env, store, amb, gate.ctx, req, header, taskId);
      }
    }
  }

  /** No request removes or changes a task that is not the acting user's: another
      user's tasks, and every task on a public or refused request, stay stored. */
  lemma OthersTasksUntouched(env: Env, store: Store, amb: Ambient, authorization: Option<string>, req: Request, t: Task)
    requires t in store.tasks
    requires Actor(env, store, authorization, req) != Some(t.owner)
    ensures t in Handle(env, store, amb, authorization, req).store.tasks
  {
    var o := Handle(env, store, amb, authorization, req);
    var j :| 0 <= j < |store.tasks| && store.tasks[j] == t;
    if !Public(req) {
      var gate := Authenticate(env, store, authorization, PathId(req));
      if gate.Granted? {
        var ctx := gate.ctx;
        if req.UpdateTask? && o.response.status == Ok {
          var i := FindOwnedTask(store.tasks, req.taskId, ctx.user.id).value;
          assert o.store.tasks[j] == t;
        } else if req.DeleteTask? && o.response.status == Ok {
          var i := FindOwnedTask(store.tasks, req.taskId, ctx.user.id).value;
          assert o.store.tasks == Seqs.RemoveAt(store.tasks, i);
          assert j != i;
          Seqs.RemoveAtKeeps(store.tasks, i, j);
        } else if req.CreateTask? && o.response.status == Created {
          assert o.store.tasks[j] == t;
        }
      }
    }
  }

  /** Every task a request adds or rewrites belongs to the acting user: a created task
      is the caller's whatever owner the body names, and a patch never moves a task. */
  lemma NewTasksBelongToActor(env: Env, store: Store, amb: Ambient, authorization: Option<string>, req: Request, t: Task)
    requires t in Handle(env, store, amb, authorization, req).store.tasks && t !in store.tasks
    ensures Actor(env, store, authorization, req) == Some(t.owner)
  {
    var o := Handle(env, store, amb, authorization, req);
    if !Public(req) {
      var gate := Authenticate(env, store, authorization, PathId(req));
      if gate.Granted? && req.UpdateTask? {
        var i := FindOwnedTask(store.tasks, req.taskId, gate.ctx.user.id).value;
        assert o.store.tasks == store.tasks[i := o.response.body.task];
      }
    }
  }
}

=== FILE: auth.dfy ===
/** The authentication gate every protected route runs first
    (src/middleware/auth.js). */
module Auth {
  import opened Optional
  import opened Model
  import opened Http
  import Seqs
  import Text

  const BearerPrefix: string := "Bearer "

  /** The one body every failure of the gate sends. */
  const AuthFailure: string := "Authentication required!"

  /** What the gate hands to the route: the acting user, the raw token (needed to
      revoke it on logout) and the caller's task named by the path, if any. */
  datatype Context = Context(user: User, token: Token, task: Option<Task>)

  datatype Gate = Denied | Granted(ctx: Context)

  /** The token carried by an `Authorization` header: the header with its first
      `"Bearer "` removed, wherever that occurs. */
  function BearerToken(header: string): (token: string)
    ensures Text.IndexOf(header, BearerPrefix).None? ==> token == header
    ensures Text.IndexOf(header, BearerPrefix).Some? ==> |token| == |header| - |BearerPrefix|
  {
    Text.ReplaceFirst(header, BearerPrefix, "")
  }

  /** A header written the way clients write it, `Bearer <token>`, yields the token,
      even when the token itself contains `"Bearer "`. */
  lemma BearerTokenOfHeader(token: Token)
    ensures BearerToken(BearerPrefix + token) == token
  {
    Text.ReplaceFirstAt("", BearerPrefix, token, "");
    assert "" + BearerPrefix + token == BearerPrefix + token;
  }

  /** Only the first occurrence is removed: a doubled prefix leaves one behind. */
  lemma BearerTokenOnlyFirst(token: Token)
    ensures BearerToken(BearerPrefix + BearerPrefix + token) == BearerPrefix + token
  {
    BearerTokenOfHeader(BearerPrefix + token);
    assert BearerPrefix + BearerPrefix + token == BearerPrefix + (BearerPrefix + token);
  }

  /** The prefix is not required: a header without it is taken as the token whole. */
  lemma BearerTokenWithoutPrefix(header: string)
    requires forall j :: 0 <= j <= |header| ==> !Text.OccursAt(header, BearerPrefix, j)
    ensures BearerToken(header) == header
  {
  }

  /** A header without `"Bearer "` anywhere in it is treated exactly like
      `Bearer ` followed by it, whatever the store and the path. */
  lemma UnprefixedHeaderIsBearer(env: Env, store: Store, header: string, taskId: Option<TaskId>)
    requires forall j :: 0 <= j <= |header| ==> !Text.OccursAt(header, BearerPrefix, j)
    ensures Authenticate(env, store, Some(header), taskId) == Authenticate(env, store, Some(BearerPrefix + header), taskId)
  {
    BearerTokenWithoutPrefix(header);
    BearerTokenOfHeader(header);
  }

  /** Some stored user with this id still lists this exact token. */
  predicate Listed(users: seq<User>, id: UserId, token: Token) {
    exists u :: u in users && u.id == id && token in u.tokens
  }

  /** The session a header presents is live: its token verifies as some user's id
      and that user still lists the token. */
  predicate LiveSession(env: Env, store: Store, header: string) {
    var token := BearerToken(header);
    env.verify(token).Some? && Listed(store.users, env.verify(token).value, token)
  }

  /** The gate. A missing header, a token that does not verify, and a token no
      longer listed by its user all end the same way; otherwise the route receives
      the user `findOne({ _id, 'tokens.token' })` returns, the token, and the task
      `findOne({ owner, _id })` returns for the path's id. */
  function Authenticate(env: Env, store: Store, authorization: Option<string>, taskId: Option<TaskId>): (r: Gate)
    ensures authorization.None? ==> r.Denied?
    ensures r.Granted? <==> authorization.Some? && LiveSession(env, store, authorization.value)
    ensures r.Granted? ==>
      && r.ctx.token == BearerToken(authorization.value)
      && r.ctx.user in store.users
      && env.verify(r.ctx.token) == Some(r.ctx.user.id)
      && r.ctx.token in r.ctx.user.tokens
    ensures r.Granted? && r.ctx.task.Some? ==>
      && r.ctx.task.value in store.tasks
      && r.ctx.task.value.owner == r.ctx.user.id
      && taskId == Some(r.ctx.task.value.id)
  {
    match authorization
    case None => Denied
    case Some(header) =>
      var token := BearerToken(header);
      match env.verify(token)
      case None => Denied
      case Some(id) =>
        match Seqs.FirstIndex(store.users, (u: User) => u.id == id && token in u.tokens)
        case None => Denied
        case Some(i) =>
          var user := store.users[i];
          var task :=
            match taskId
            case None => None
            case Some(tid) =>
              match FindOwnedTask(store.tasks, tid, user.id)
              case None => None
              case Some(k) => Some(store.tasks[k]);
          Granted(Context(user, token, task))
  }

  /** In a store with unique user ids, the gate's user is the only stored user with
      that id. */
  lemma GrantedUserIsTheOne(env: Env, store: Store, authorization: Option<string>, taskId: Option<TaskId>, v: User)
    requires UniqueUserIds(store.users)
    requires Authenticate(env, store, authorization, taskId).Granted?
    requires v in store.users && v.id == Authenticate(env, store, authorization, taskId).ctx.user.id
    ensures v == Authenticate(env, store, authorization, taskId).ctx.user
  {
    var u := Authenticate(env, store, authorization, taskId).ctx.user;
    var i :| 0 <= i < |store.users| && store.users[i] == u;
    var j :| 0 <= j < |store.users| && store.users[j] == v;
    assert i == j by {
      if i < j { } else if j < i { }
    }
  }

  /** The response of a request the gate turned away. */
  function Refusal(store: Store): (o: Outcome)
    ensures o.store == store
    ensures o.response == Response(Unauthorized, Error(AuthFailure))
  {
    Reject(store, Unauthorized, Error(AuthFailure))
  }
}

=== FILE: http.dfy ===
/** What a route answers: a status code with a body, and the store it leaves. */
module Http {
  import opened Optional
  import opened Model

  const Ok: nat := 200
  const Created: nat := 201
  const BadRequest: nat := 400
  const Unauthorized: nat := 401
  const NotFound: nat := 404

  /** The sort the task list asks the database for: a field name and 1 (ascending)
      or -1 (descending). */
  datatype SortOrder = SortOrder(field: string, direction: int)

  datatype Body =
    | Empty
    /** `{ error: message }` */
    | Error(message: string)
    /** The error object raised by validation or by the database. */
    | Rejection
    /** A user together with the token just issued. */
    | Session(user: User, token: Token)
    | Profile(user: User)
    | TaskDoc(task: Task)
    /** The caller's tasks, with the order the database is asked to return them in. */
    | TaskList(tasks: seq<Task>, sort: Option<SortOrder>)
    /** Image bytes, sent as `image/png`. */
    | Image(bytes: Bytes)

  datatype Response = Response(status: nat, body: Body)

  /** The response a handler sends and the store it leaves behind. */
  datatype Outcome = Outcome(response: Response, store: Store)

  /** A failure that writes nothing. */
  function Reject(s: Store, status: nat, body: Body): (o: Outcome)
    ensures o.store == s && o.response.status == status
  {
    Outcome(Response(status, body), s)
  }
}

=== FILE: model.dfy ===
/** The documents the application persists and the collaborators it calls but does
    not define.

    Users and tasks live in two collections, each kept in its natural order so that
    `findOne` means "first match". Signing and verifying tokens, comparing password
    hashes, the schema validators and image transcoding belong to libraries or to
    model files outside this model; they are the fields of `Env`, passed in
    unconstrained. */
module Model {
  import opened Optional
  import Seqs

  type UserId = nat
  type TaskId = nat

  /** A signed session token, as an opaque string. */
  type Token = string

  type Byte = b: int | 0 <= b < 256
  type Bytes = seq<Byte>

  /** A user document. `tokens` lists the sessions in the order they were issued;
      `password` is whatever the credential store keeps for it. */
  datatype User = User(
    id: UserId,
    name: string,
    email: string,
    password: string,
    age: int,
    tokens: seq<Token>,
    avatar: Option<Bytes>)

  /** A task document, owned by exactly one user. */
  datatype Task = Task(id: TaskId, description: string, completed: bool, owner: UserId)

  /** The two collections. */
  datatype Store = Store(users: seq<User>, tasks: seq<Task>)

  /** Code the routes call into without it being part of this model. */
  datatype Env = Env(
    /** `jwt.verify` with the process secret: the `_id` claim of a token whose
        signature checks, or nothing. */
    verify: Token -> Option<UserId>,
    /** The token `generateAuthToken` issues for a user at a given clock reading. */
    sign: (UserId, nat) -> Token,
    /** Whether a plaintext password matches the stored one (`bcrypt.compare`). */
    passwordMatches: (string, string) -> bool,
    /** The user schema's validators (email syntax, password rules, name, age). */
    validUser: User -> bool,
    /** The task schema's validators beyond the required description. */
    validTask: Task -> bool,
    /** The avatar transcoder (resize to 350 by 350, re-encode as PNG). */
    transcode: Bytes -> Bytes)

  /** Tokens issued for a user verify as that user's. Nothing in the routes depends
      on it; the session lemmas assume it where a freshly issued token must pass the
      gate. */
  ghost predicate SoundTokens(env: Env) {
    forall id: UserId, t: nat :: env.verify(env.sign(id, t)) == Some(id)
  }

  /** The ids of the stored users. */
  function UserIds(users: seq<User>): set<UserId> {
    set u | u in users :: u.id
  }

  /** The ids of the stored tasks. */
  function TaskIds(tasks: seq<Task>): set<TaskId> {
    set t | t in tasks :: t.id
  }

  predicate UniqueUserIds(users: seq<User>) {
    forall i, j :: 0 <= i < j < |users| ==> users[i].id != users[j].id
  }

  /** The unique index on `email`. */
  predicate UniqueEmails(users: seq<User>) {
    forall i, j :: 0 <= i < j < |users| ==> users[i].email != users[j].email
  }

  predicate UniqueTaskIds(tasks: seq<Task>) {
    forall i, j :: 0 <= i < j < |tasks| ==> tasks[i].id != tasks[j].id
  }

  /** Every task's owner is a stored user. */
  predicate OwnersExist(s: Store) {
    forall t :: t in s.tasks ==> t.owner in UserIds(s.users)
  }

  /** What the routes keep true of the store. */
  predicate WellFormed(s: Store) {
    && UniqueUserIds(s.users)
    && UniqueEmails(s.users)
    && UniqueTaskIds(s.tasks)
    && OwnersExist(s)
  }

  /** `User.findById(id)`: the position of the user with this id. */
  function FindUser(users: seq<User>, id: UserId): (r: Option<nat>)
    ensures r.Some? ==> r.value < |users| && users[r.value].id == id
    ensures r.None? <==> id !in UserIds(users)
  {
    var r := Seqs.FirstIndex(users, (u: User) => u.id == id);
    assert r.Some? ==> users[r.value] in users;
    r
  }

  /** `Task.findOne({ _id: id, owner: owner })`: the position of the task with this id
      if it belongs to `owner`. */
  function FindOwnedTask(tasks: seq<Task>, id: TaskId, owner: UserId): (r: Option<nat>)
    ensures r.Some? ==> r.value < |tasks| && tasks[r.value].id == id && tasks[r.value].owner == owner
    ensures r.None? <==> forall t :: t in tasks ==> !(t.id == id && t.owner == owner)
  {
    Seqs.FirstIndex(tasks, (t: Task) => t.id == id && t.owner == owner)
  }

  /** In a collection with unique ids, the task found by `{ _id, owner }` is the one
      with that id, and it is found exactly when its owner is the one asked for. */
  lemma FindOwnedTaskUnique(tasks: seq<Task>, i: nat, owner: UserId)
    requires UniqueTaskIds(tasks)
    requires i < |tasks|
    ensures FindOwnedTask(tasks, tasks[i].id, owner) == if tasks[i].owner == owner then Some(i) else None
  {
    var r := FindOwnedTask(tasks, tasks[i].id, owner);
    if r.Some? {
      assert r.value == i by {
        if r.value < i {
        } else if r.value > i {
        }
      }
    }
  }

  /** `user.save()` for a user already stored: the document with its id is
      replaced and every other one is kept. */
  function PutUser(users: seq<User>, u: User): (r: seq<User>)
    ensures |r| == |users|
    ensures u.id in UserIds(users) ==> u in r
    ensures forall j :: 0 <= j < |users| && users[j].id != u.id ==> r[j] == users[j]
    ensures forall j :: 0 <= j < |r| ==> r[j] == users[j] || r[j] == u
    ensures UniqueUserIds(users) ==> forall j :: 0 <= j < |users| && users[j].id == u.id ==> r[j] == u
    ensures forall j :: 0 <= j < |r| ==> r[j].id == users[j].id
    ensures UserIds(r) == UserIds(users)
  {
    match FindUser(users, u.id)
    case None => users
    case Some(i) =>
      var r := users[i := u];
      assert r[i] in r;
      assert UserIds(r) == UserIds(users) by {
        forall id | id in UserIds(users) ensures id in UserIds(r) {
          var v :| v in users && v.id == id;
          var k :| 0 <= k < |users| && users[k] == v;
          assert r[k] in r;
        }
      }
      r
  }

  /** Saving a user whose email no other user has keeps the store well formed. */
  lemma PutUserWellFormed(s: Store, u: User)
    requires WellFormed(s)
    requires forall v :: v in s.users && v.id != u.id ==> v.email != u.email
    ensures WellFormed(s.(users := PutUser(s.users, u)))
  {
    var r := PutUser(s.users, u);
    forall i, j | 0 <= i < j < |r| ensures r[i].id != r[j].id && r[i].email != r[j].email {
      if r[i] == u && r[j] == u {
      } else if r[i] == u {
        assert s.users[j] in s.users;
      } else if r[j] == u {
        assert s.users[i] in s.users;
      }
    }
  }

  /** Appending a task with a new id and a stored owner keeps the store well formed. */
  lemma AppendTaskWellFormed(s: Store, t: Task)
    requires WellFormed(s)
    requires forall w :: w in s.tasks ==> w.id != t.id
    requires t.owner in UserIds(s.users)
    ensures WellFormed(s.(tasks := s.tasks + [t]))
  {
    var tasks := s.tasks + [t];
    forall i, j | 0 <= i < j < |tasks| ensures tasks[i].id != tasks[j].id {
      if j == |s.tasks| {
        assert s.tasks[i] in s.tasks;
      }
    }
  }
}

=== FILE: optional.dfy ===
/** The Option type used wherever the application reads something that may be absent:
    a missing header, an unmatched `findOne`, an unset avatar. */
module Optional {

  datatype Option<+T> = None | Some(value: T)
}

=== FILE: ownership.dfy ===
/** Ownership scoping of the task routes: a task is reachable only through requests
    authenticated as its owner, and "not yours" looks exactly like "not there". */
module Ownership {
  import opened Optional
  import opened Model
  import opened Http
  import opened Auth
  import Seqs
  import TaskRoutes

  /** With unique task ids, the caller owns a task with a stored task's id exactly
      when it owns that task. */
  lemma OwnsTaskIff(store: Store, owner: UserId, t: Task)
    requires UniqueTaskIds(store.tasks) && t in store.tasks
    ensures TaskRoutes.OwnsTask(store, owner, t.id) <==> t.owner == owner
  {
    if TaskRoutes.OwnsTask(store, owner, t.id) {
      var w :| w in store.tasks && w.id == t.id && w.owner == owner;
      var i :| 0 <= i < |store.tasks| && store.tasks[i] == t;
      var j :| 0 <= j < |store.tasks| && store.tasks[j] == w;
      assert i == j by {
        if i < j { } else if j < i { }
      }
    }
  }

  /** The gate hands a route the path's task exactly when the caller owns it. */
  lemma GateTaskIsOwned(env: Env, store: Store, authorization: Option<string>, t: Task)
    requires UniqueTaskIds(store.tasks) && t in store.tasks
    requires Authenticate(env, store, authorization, Some(t.id)).Granted?
    ensures var ctx := Authenticate(env, store, authorization, Some(t.id)).ctx;
      ctx.task == (if t.owner == ctx.user.id then Some(t) else None)
  {
    var ctx := Authenticate(env, store, authorization, Some(t.id)).ctx;
    var i :| 0 <= i < |store.tasks| && store.tasks[i] == t;
    FindOwnedTaskUnique(store.tasks, i, ctx.user.id);
  }

  /** Another user's task cannot be patched or deleted: the answer is 404 (or 400 for
      a body outside the allow-list) and the store is left as it was. */
  lemma ForeignTaskUnreachable(env: Env, store: Store, ctx: Context, t: Task, patch: TaskRoutes.TaskPatch)
    requires UniqueTaskIds(store.tasks)
    requires t in store.tasks && t.owner != ctx.user.id
    ensures var o := TaskRoutes.UpdateTask(env, store, ctx, t.id, patch);
      o.store == store && o.response.status == (if TaskRoutes.AllEditable(patch.keys) then NotFound else BadRequest)
    ensures var o := TaskRoutes.DeleteTask(store, ctx, t.id);
      o.store == store && o.response.status == NotFound
  {
    OwnsTaskIff(store, ctx.user.id, t);
  }

  /** The owner's delete removes that task and only that task. */
  lemma OwnTaskDeleted(store: Store, ctx: Context, t: Task)
    requires UniqueTaskIds(store.tasks)
    requires t in store.tasks && t.owner == ctx.user.id
    ensures var o := TaskRoutes.DeleteTask(store, ctx, t.id);
      && o.response.status == Ok
      && t !in o.store.tasks
      && forall w :: w in store.tasks && w != t ==> w in o.store.tasks
  {
    var k :| 0 <= k < |store.tasks| && store.tasks[k] == t;
    FindOwnedTaskUnique(store.tasks, k, ctx.user.id);
    var rest := Seqs.RemoveAt(store.tasks, k);
    assert TaskRoutes.DeleteTask(store, ctx, t.id).store.tasks == rest;
    forall w | w in store.tasks && w != t ensures w in rest {
      var j :| 0 <= j < |store.tasks| && store.tasks[j] == w;
      if j < k {
        assert rest[j] == w;
      } else {
        assert rest[j - 1] == w;
      }
    }
  }

  /** The owner's allowed patch that the schema accepts succeeds: the task is
      rewritten as patched, and every other task stays stored. */
  lemma OwnTaskPatched(env: Env, store: Store, ctx: Context, t: Task, patch: TaskRoutes.TaskPatch)
    requires UniqueTaskIds(store.tasks)
    requires t in store.tasks && t.owner == ctx.user.id
    requires TaskRoutes.AllEditable(patch.keys) && TaskRoutes.Saves(env, TaskRoutes.Edit(t, patch))
    ensures var o := TaskRoutes.UpdateTask(env, store, ctx, t.id, patch);
      && o.response == Response(Ok, TaskDoc(TaskRoutes.Edit(t, patch)))
      && TaskRoutes.Edit(t, patch) in o.store.tasks
      && forall w :: w in store.tasks && w != t ==> w in o.store.tasks
  {
    var k :| 0 <= k < |store.tasks| && store.tasks[k] == t;
    FindOwnedTaskUnique(store.tasks, k, ctx.user.id);
    var after := store.tasks[k := TaskRoutes.Edit(t, patch)];
    assert TaskRoutes.UpdateTask(env, store, ctx, t.id, patch).store.tasks == after;
    assert after[k] == TaskRoutes.Edit(t, patch);
    forall w | w in store.tasks && w != t ensures w in after {
      var j :| 0 <= j < |store.tasks| && store.tasks[j] == w;
      assert after[j] == w;
    }
  }

  /** The list shows the caller's tasks only, whatever the query asks. */
  lemma ListShowsOnlyOwnTasks(store: Store, ctx: Context, completed: Option<string>, sortBy: Option<string>, t: Task)
    requires t in TaskRoutes.ListTasks(store, ctx, completed, sortBy).response.body.tasks
    ensures t.owner == ctx.user.id && t in store.tasks
  {
  }
}

=== FILE: scenarios.dfy ===
/** The repository's test scenarios, restated as lemmas over its fixture store: two users with one
    session each, and three tasks (two of them the first user's). The fixture's
    signed tokens are opaque strings here; each scenario assumes only that they
    verify as their users' ids. */
module Scenarios {
  import opened Optional
  import opened Model
  import opened Http
  import opened Auth
  import Seqs
  import Text
  import UserRoutes
  import TaskRoutes
  import Ownership
  import App

  const TokenOne: Token := "token-of-user-one"
  const TokenTwo: Token := "token-of-user-two"

  const UserOne: User := User(1, "alex", "alex@example.com", "alexpass", 0, [TokenOne], None)
  const UserTwo: User := User(2, "jess", "jess@example.com", "jesspass", 0, [TokenTwo], None)

  const TaskOne: Task := Task(11, "First", false, 1)
  const TaskTwo: Task := Task(12, "Second", true, 1)
  const TaskThree: Task := Task(13, "Third", true, 2)

  const Fixture: Store := Store([UserOne, UserTwo], [TaskOne, TaskTwo, TaskThree])

  /** The fixture's tokens verify as the ids they were signed for. */
  predicate FixtureTokens(env: Env) {
    env.verify(TokenOne) == Some(1) && env.verify(TokenTwo) == Some(2)
  }

  lemma FixtureWellFormed()
    ensures WellFormed(Fixture)
  {
    assert UserOne in Fixture.users && UserTwo in Fixture.users;
  }

  /** The gate accepts each fixture user's header; with no task of that user's under
      the path id, the context carries no task. */
  lemma FixtureGate(env: Env, token: Token, user: User, taskId: Option<TaskId>)
    requires FixtureTokens(env)
    requires (token == TokenOne && user == UserOne) || (token == TokenTwo && user == UserTwo)
    requires taskId.Some? ==> forall t :: t in Fixture.tasks && t.id == taskId.value ==> t.owner != user.id
    ensures Authenticate(env, Fixture, Some(BearerPrefix + token), taskId) == Granted(Context(user, token, None))
  {
    BearerTokenOfHeader(token);
    assert user in Fixture.users;
    FixtureWellFormed();
    GrantedUserIsTheOne(env, Fixture, Some(BearerPrefix + token), taskId, user);
  }

  /** Behind the gate, a fixture user's request is its handler run on that user's
      session. */
  lemma FixtureHandle(env: Env, amb: App.Ambient, token: Token, user: User, req: App.Request)
    requires FixtureTokens(env)
    requires (token == TokenOne && user == UserOne) || (token == TokenTwo && user == UserTwo)
    requires !App.Public(req)
    requires App.PathId(req).Some? ==>
      forall t :: t in Fixture.tasks && t.id == App.PathId(req).value ==> t.owner != user.id
    ensures App.Handle(env, Fixture, amb, Some(BearerPrefix + token), req) ==
      App.Dispatch(env, Fixture, amb, Context(user, token, None), req)
  {
    var ctx := Context(user, token, None);
    assert Authenticate(env, Fixture, Some(BearerPrefix + token), App.PathId(req)) == Granted(ctx) by {
      FixtureGate(env, token, user, App.PathId(req));
    }
    App.HandleGated(env, Fixture, amb, Some(BearerPrefix + token), req, ctx);
  }

  /** A request without a session is refused and changes nothing. */
  lemma ProfileNeedsSession(env: Env, amb: App.Ambient)
    ensures App.Handle(env, Fixture, amb, None, App.ReadProfile) == Outcome(Response(Unauthorized, Error(AuthFailure)), Fixture)
  {
  }

  /** The tasks listed for `ctx` with a `completed` query, counted. */
  lemma ShownCount(ctx: Context, completed: Option<string>, expected: seq<Task>)
    requires forall t :: Seqs.Count(expected, t) ==
                         (if TaskRoutes.Shown(ctx.user.id, TaskRoutes.CompletedFilter(completed), t) then Seqs.Count(Fixture.tasks, t) else 0)
    ensures |TaskRoutes.ListTasks(Fixture, ctx, completed, None).response.body.tasks| == |expected|
  {
    var tasks := TaskRoutes.ListTasks(Fixture, ctx, completed, None).response.body.tasks;
    assert forall t :: multiset(tasks)[t] == Seqs.Count(tasks, t) == Seqs.Count(expected, t) == multiset(expected)[t];
    assert multiset(tasks) == multiset(expected);
    assert |multiset(tasks)| == |tasks| && |multiset(expected)| == |expected|;
  }

  /** The first user lists both of its tasks and not the other user's. */
  lemma FetchUserTasks(env: Env, amb: App.Ambient)
    requires FixtureTokens(env)
    ensures var o := App.Handle(env, Fixture, amb, Some(BearerPrefix + TokenOne), App.ListTasks(None, None));
      o.response.status == Ok && o.response.body.TaskList? && |o.response.body.tasks| == 2
  {
    var ctx := Context(UserOne, TokenOne, None);
    var d := App.Dispatch(env, Fixture, amb, ctx, App.ListTasks(None, None));
    assert d == TaskRoutes.ListTasks(Fixture, ctx, None, None);
    assert |d.response.body.tasks| == 2 by {
      ShownCount(ctx, None, [TaskOne, TaskTwo]);
    }
    assert App.Handle(env, Fixture, amb, Some(BearerPrefix + TokenOne), App.ListTasks(None, None)) == d by {
      FixtureHandle(env, amb, TokenOne, UserOne, App.ListTasks(None, None));
    }
  }

  /** `completed=true` leaves the first user's one completed task. */
  lemma FetchOnlyCompleted(env: Env, amb: App.Ambient)
    requires FixtureTokens(env)
    ensures var o := App.Handle(env, Fixture, amb, Some(BearerPrefix + TokenOne), App.ListTasks(Some("true"), None));
      o.response.status == Ok && o.response.body.TaskList? && |o.response.body.tasks| == 1
  {
    var ctx := Context(UserOne, TokenOne, None);
    var d := App.Dispatch(env, Fixture, amb, ctx, App.ListTasks(Some("true"), None));
    assert d == TaskRoutes.ListTasks(Fixture, ctx, Some("true"), None);
    assert |d.response.body.tasks| == 1 by {
      ShownCount(ctx, Some("true"), [TaskTwo]);
    }
    assert App.Handle(env, Fixture, amb, Some(BearerPrefix + TokenOne), App.ListTasks(Some("true"), None)) == d by {
      FixtureHandle(env, amb, TokenOne, UserOne, App.ListTasks(Some("true"), None));
    }
  }

  /** `completed=false` leaves none of the second user's tasks, all of which are done. */
  lemma FetchOnlyIncomplete(env: Env, amb: App.Ambient)
    requires FixtureTokens(env)
    ensures var o := App.Handle(env, Fixture, amb, Some(BearerPrefix + TokenTwo), App.ListTasks(Some("false"), None));
      o.response.status == Ok && o.response.body.TaskList? && |o.response.body.tasks| == 0
  {
    var ctx := Context(UserTwo, TokenTwo, None);
    var d := App.Dispatch(env, Fixture, amb, ctx, App.ListTasks(Some("false"), None));
    assert d == TaskRoutes.ListTasks(Fixture, ctx, Some("false"), None);
    assert |d.response.body.tasks| == 0 by {
      ShownCount(ctx, Some("false"), []);
    }
    assert App.Handle(env, Fixture, amb, Some(BearerPrefix + TokenTwo), App.ListTasks(Some("false"), None)) == d by {
      FixtureHandle(env, amb, TokenTwo, UserTwo, App.ListTasks(Some("false"), None));
    }
  }

  /** The second user cannot delete the first user's task, which stays stored. */
  lemma CannotDeleteOthersTask(env: Env, amb: App.Ambient)
    requires FixtureTokens(env)
    ensures var o := App.Handle(env, Fixture, amb, Some(BearerPrefix + TokenTwo), App.DeleteTask(TaskOne.id));
      o.response.status == NotFound && o.store == Fixture
  {
    var ctx := Context(UserTwo, TokenTwo, None);
    var d := App.Dispatch(env, Fixture, amb, ctx, App.DeleteTask(TaskOne.id));
    assert d == TaskRoutes.DeleteTask(Fixture, ctx, TaskOne.id);
    assert d.response.status == NotFound && d.store == Fixture by {
      FixtureWellFormed();
      Ownership.ForeignTaskUnreachable(env, Fixture, ctx, TaskOne, TaskRoutes.TaskPatch([], "", false));
    }
    assert App.Handle(env, Fixture, amb, Some(BearerPrefix + TokenTwo), App.DeleteTask(TaskOne.id)) == d by {
      FixtureHandle(env, amb, TokenTwo, UserTwo, App.DeleteTask(TaskOne.id));
    }
  }

  /** The second user cannot rename the first user's task; it keeps its description. */
  lemma CannotUpdateOthersTask(env: Env, amb: App.Ambient)
    requires FixtureTokens(env)
    ensures var patch := TaskRoutes.TaskPatch(["description", "completed"], "Modify other users task", false);
      var o := App.Handle(env, Fixture, amb, Some(BearerPrefix + TokenTwo), App.UpdateTask(TaskOne.id, patch));
      o.response.status == NotFound && o.store == Fixture
  {
    var patch := TaskRoutes.TaskPatch(["description", "completed"], "Modify other users task", false);
    var ctx := Context(UserTwo, TokenTwo, None);
    var d := App.Dispatch(env, Fixture, amb, ctx, App.UpdateTask(TaskOne.id, patch));
    assert d == TaskRoutes.UpdateTask(env, Fixture, ctx, TaskOne.id, patch);
    assert d.response.status == NotFound && d.store == Fixture by {
      FixtureWellFormed();
      Ownership.ForeignTaskUnreachable(env, Fixture, ctx, TaskOne, patch);
    }
    assert App.Handle(env, Fixture, amb, Some(BearerPrefix + TokenTwo), App.UpdateTask(TaskOne.id, patch)) == d by {
      FixtureHandle(env, amb, TokenTwo, UserTwo, App.UpdateTask(TaskOne.id, patch));
    }
  }

  /** A body naming a key outside the allow-list, such as `location`, rejects the
      profile update whatever else it holds. */
  lemma UnknownProfileFieldRejected(env: Env, amb: App.Ambient, body: UserRoutes.ProfileBody)
    requires FixtureTokens(env)
    requires "location" in body.keys
    ensures var o := App.Handle(env, Fixture, amb, Some(BearerPrefix + TokenOne), App.UpdateProfile(body));
      o.response == Response(BadRequest, Error(UserRoutes.InvalidUpdates)) && o.store == Fixture
  {
    FixtureHandle(env, amb, TokenOne, UserOne, App.UpdateProfile(body));
  }

  /** A body whose description is only white space is refused and nothing is stored. */
  lemma BlankTaskRefused(env: Env, amb: App.Ambient, body: TaskRoutes.TaskBody)
    requires FixtureTokens(env)
    requires Text.IsBlank(body.description)
    ensures var o := App.Handle(env, Fixture, amb, Some(BearerPrefix + TokenOne), App.CreateTask(body));
      o.response.status == BadRequest && o.store == Fixture
  {
    var ctx := Context(UserOne, TokenOne, None);
    var d := App.Dispatch(env, Fixture, amb, ctx, App.CreateTask(body));
    assert d == Reject(Fixture, BadRequest, Empty) by {
      TaskRoutes.BlankDescriptionRefused(env, Fixture, ctx, body, amb.freshId);
    }
    assert App.Handle(env, Fixture, amb, Some(BearerPrefix + TokenOne), App.CreateTask(body)) == d by {
      FixtureHandle(env, amb, TokenOne, UserOne, App.CreateTask(body));
    }
  }

  /** Logging in with the fixture password stores a second token, the one returned. */
  lemma LoginStoresSecondToken(env: Env, amb: App.Ambient)
    requires env.passwordMatches("alexpass", "alexpass")
    ensures var o := App.Handle(env, Fixture, amb, None, App.Login("alex@example.com", "alexpass"));
      && o.response.status == Ok
      && o.store.users[0].tokens == [TokenOne, o.response.body.token]
  {
    var o := App.Handle(env, Fixture, amb, None, App.Login("alex@example.com", "alexpass"));
    assert UserRoutes.FindByCredentials(env, Fixture.users, "alex@example.com", "alexpass") == Some(0);
    FixtureWellFormed();
    assert Fixture.users[0].id == o.response.body.user.id;
  }
}

=== FILE: seqs.dfy ===
/** Sequence operations behind the document-store queries the routes issue:
    `findOne` (first match in collection order), array `filter`, and removing one
    document at a known position. */
module Seqs {
  import opened Optional

  /** The number of occurrences of `x` in `s`. */
  function Count<T(==)>(s: seq<T>, x: T): nat {
    multiset(s)[x]
  }

  /** The position of the first element of `s` satisfying `p`, as `findOne` returns it. */
  function FirstIndex<T>(s: seq<T>, p: T -> bool): (r: Option<nat>)
    ensures r.Some? ==> r.value < |s| && p(s[r.value])
    ensures r.Some? ==> forall j :: 0 <= j < r.value ==> !p(s[j])
    ensures r.None? <==> forall j :: 0 <= j < |s| ==> !p(s[j])
  {
    if |s| == 0 then None
    else if p(s[0]) then Some(0)
    else
      match FirstIndex(s[1..], p)
      case None => None
      case Some(i) => Some(i + 1)
  }

  /** The elements of `s` satisfying `p`, in their original order. */
  function Filter<T(!new)>(s: seq<T>, p: T -> bool): (r: seq<T>)
    ensures |r| <= |s|
    ensures forall x :: x in r <==> x in s && p(x)
  {
    if |s| == 0 then []
    else (if p(s[0]) then [s[0]] else []) + Filter(s[1..], p)
  }

  /** Filtering a concatenation filters each part and keeps the parts in order:
      this is what "original order is kept" means. */
  lemma {:induction false} FilterConcat<T(!new)>(a: seq<T>, b: seq<T>, p: T -> bool)
    ensures Filter(a + b, p) == Filter(a, p) + Filter(b, p)
  {
    if |a| == 0 {
      assert a + b == b;
    } else {
      assert (a + b)[1..] == a[1..] + b;
      FilterConcat(a[1..], b, p);
    }
  }

  /** Filtering keeps every satisfying element as often as it occurs and drops
      every other one entirely. */
  lemma {:induction false} FilterCount<T(!new)>(s: seq<T>, p: T -> bool, x: T)
    ensures Count(Filter(s, p), x) == if p(x) then Count(s, x) else 0
  {
    if |s| == 0 {
    } else {
      FilterCount(s[1..], p, x);
      assert s == [s[0]] + s[1..];
      assert multiset(s) == multiset([s[0]]) + multiset(s[1..]);
    }
  }

  /** `FilterCount` for every element at once. */
  lemma FilterCountAll<T(!new)>(s: seq<T>, p: T -> bool)
    ensures forall x :: Count(Filter(s, p), x) == if p(x) then Count(s, x) else 0
  {
    forall x ensures Count(Filter(s, p), x) == if p(x) then Count(s, x) else 0 {
      FilterCount(s, p, x);
    }
  }

  /** A filter whose predicate holds everywhere changes nothing. */
  lemma {:induction false} FilterAll<T(!new)>(s: seq<T>, p: T -> bool)
    requires forall x :: x in s ==> p(x)
    ensures Filter(s, p) == s
  {
    if |s| != 0 {
      assert forall x :: x in s[1..] ==> x in s;
      FilterAll(s[1..], p);
    }
  }

  /** `s` without the element at position `i`; the others keep their order. */
  function RemoveAt<T>(s: seq<T>, i: nat): (r: seq<T>)
    requires i < |s|
    ensures |r| == |s| - 1
    ensures forall j :: 0 <= j < i ==> r[j] == s[j]
    ensures forall j :: i <= j < |r| ==> r[j] == s[j + 1]
  {
    s[..i] + s[i + 1..]
  }

  /** Removing one position keeps every element at another position. */
  lemma RemoveAtKeeps<T>(s: seq<T>, i: nat, j: nat)
    requires i < |s| && j < |s| && i != j
    ensures s[j] in RemoveAt(s, i)
  {
    if j < i {
      assert RemoveAt(s, i)[j] == s[j];
    } else {
      assert RemoveAt(s, i)[j - 1] == s[j];
    }
  }
}

=== FILE: sessions.dfy ===
/** The session lifecycle across routes: which tokens the gate accepts after signup,
    login, logout and logout of every session. */
module Sessions {
  import opened Optional
  import opened Model
  import opened Http
  import opened Auth
  import UserRoutes

  /** With unique ids, a token is listed under a stored user's id exactly when that
      user's own list holds it. */
  lemma ListedIffHeld(users: seq<User>, v: User, t: Token)
    requires UniqueUserIds(users) && v in users
    ensures Listed(users, v.id, t) <==> t in v.tokens
  {
    if Listed(users, v.id, t) {
      var w :| w in users && w.id == v.id && t in w.tokens;
      var i :| 0 <= i < |users| && users[i] == v;
      var j :| 0 <= j < |users| && users[j] == w;
      assert i == j by {
        if i < j { } else if j < i { }
      }
    }
  }

  /** Saving `u` over the stored user with its id changes which tokens are listed
      under that id only, and there exactly to `u`'s list. */
  lemma ListedAfterSave(s: Store, u: User, id: UserId, t: Token)
    requires UniqueUserIds(s.users) && u.id in UserIds(s.users)
    ensures Listed(UserRoutes.SaveUser(s, u).users, id, t) <==>
      if id == u.id then t in u.tokens else Listed(s.users, id, t)
  {
    var r := UserRoutes.SaveUser(s, u).users;
    if Listed(r, id, t) {
      var w :| w in r && w.id == id && t in w.tokens;
      var j :| 0 <= j < |r| && r[j] == w;
      if s.users[j].id == u.id {
        assert r[j] == u;
      } else {
        assert r[j] == s.users[j];
        assert s.users[j] in s.users;
      }
    }
    if id == u.id && t in u.tokens {
      assert u in r;
    }
    if id != u.id && Listed(s.users, id, t) {
      var w :| w in s.users && w.id == id && t in w.tokens;
      var j :| 0 <= j < |s.users| && s.users[j] == w;
      assert r[j] == w;
      assert r[j] in r;
    }
  }

  /** The gate after such a save: a header's session is live exactly as before,
      except for tokens verifying as `u`'s id, which are live when `u` lists them. */
  lemma GateAfterSave(env: Env, s: Store, u: User, header: string, taskId: Option<TaskId>)
    requires UniqueUserIds(s.users) && u.id in UserIds(s.users)
    ensures var t := BearerToken(header);
      Authenticate(env, UserRoutes.SaveUser(s, u), Some(header), taskId).Granted? <==>
        env.verify(t).Some? &&
        if env.verify(t).value == u.id then t in u.tokens else Listed(s.users, env.verify(t).value, t)
  {
    var t := BearerToken(header);
    if env.verify(t).Some? {
      ListedAfterSave(s, u, env.verify(t).value, t);
    }
  }

  /** Logging out ends the presented session and no other: afterwards the gate accepts
      a header exactly when it accepted it before and it carries a different token. */
  lemma LogoutEndsOnlyThatSession(env: Env, store: Store, authorization: Option<string>, taskId: Option<TaskId>,
                                  header: string, taskId': Option<TaskId>)
    requires UniqueUserIds(store.users)
    requires Authenticate(env, store, authorization, taskId).Granted?
    ensures var ctx := Authenticate(env, store, authorization, taskId).ctx;
      var after := UserRoutes.Logout(store, ctx).store;
      Authenticate(env, after, Some(header), taskId').Granted? <==>
        Authenticate(env, store, Some(header), taskId').Granted? && BearerToken(header) != ctx.token
  {
    var ctx := Authenticate(env, store, authorization, taskId).ctx;
    var u := ctx.user.(tokens := UserRoutes.Revoke(ctx.user.tokens, ctx.token));
    assert ctx.user.id in UserIds(store.users);
    GateAfterSave(env, store, u, header, taskId');
    var t := BearerToken(header);
    if env.verify(t) == Some(ctx.user.id) {
      ListedIffHeld(store.users, ctx.user, t);
    }
  }

  /** Logging out of every session ends each session of the caller and leaves every
      other user's sessions as they were. */
  lemma LogoutAllEndsEverySession(env: Env, store: Store, authorization: Option<string>, taskId: Option<TaskId>,
                                  header: string, taskId': Option<TaskId>)
    requires UniqueUserIds(store.users)
    requires Authenticate(env, store, authorization, taskId).Granted?
    ensures var ctx := Authenticate(env, store, authorization, taskId).ctx;
      var after := UserRoutes.LogoutAll(store, ctx).store;
      Authenticate(env, after, Some(header), taskId').Granted? <==>
        Authenticate(env, store, Some(header), taskId').Granted? && env.verify(BearerToken(header)) != Some(ctx.user.id)
  {
    var ctx := Authenticate(env, store, authorization, taskId).ctx;
    assert ctx.user.id in UserIds(store.users);
    GateAfterSave(env, store, ctx.user.(tokens := []), header, taskId');
  }

  /** The token a successful login returns opens a session for that user at once, and
      every session that was live before stays live. */
  lemma LoginOpensSession(env: Env, store: Store, email: string, password: string, now: nat,
                          header: string, taskId: Option<TaskId>)
    requires SoundTokens(env)
    requires UniqueUserIds(store.users)
    requires UserRoutes.Login(env, store, email, password, now).response.status == Ok
    ensures var o := UserRoutes.Login(env, store, email, password, now);
      var gate := Authenticate(env, o.store, Some(BearerPrefix + o.response.body.token), taskId);
      gate.Granted? && gate.ctx.user == o.response.body.user
    ensures var o := UserRoutes.Login(env, store, email, password, now);
      Authenticate(env, store, Some(header), taskId).Granted? ==> Authenticate(env, o.store, Some(header), taskId).Granted?
  {
    var o := UserRoutes.Login(env, store, email, password, now);
    var i := UserRoutes.FindByCredentials(env, store.users, email, password).value;
    var before := store.users[i];
    var u := o.response.body.user;
    var token := o.response.body.token;
    assert before.id in UserIds(store.users);
    assert o.store == UserRoutes.SaveUser(store, u);
    BearerTokenOfHeader(token);
    GateAfterSave(env, store, u, BearerPrefix + token, taskId);
    assert Authenticate(env, o.store, Some(BearerPrefix + token), taskId).Granted?;
    assert u in o.store.users;
    GrantedUserIsTheOne(env, o.store, Some(BearerPrefix + token), taskId, u);
    GateAfterSave(env, store, u, header, taskId);
    var t := BearerToken(header);
    if env.verify(t) == Some(u.id) {
      ListedIffHeld(store.users, before, t);
    }
  }

  /** The token a successful signup returns opens a session for the new user at once,
      and every session that was live before stays live. */
  lemma SignupOpensSession(env: Env, store: Store, body: UserRoutes.ProfileBody, freshId: UserId, now: nat,
                           header: string, taskId: Option<TaskId>)
    requires SoundTokens(env)
    requires UniqueUserIds(store.users)
    requires UserRoutes.Signup(env, store, body, freshId, now).response.status == Created
    ensures var o := UserRoutes.Signup(env, store, body, freshId, now);
      var gate := Authenticate(env, o.store, Some(BearerPrefix + o.response.body.token), taskId);
      gate.Granted? && gate.ctx.user == o.response.body.user
    ensures var o := UserRoutes.Signup(env, store, body, freshId, now);
      Authenticate(env, store, Some(header), taskId).Granted? ==> Authenticate(env, o.store, Some(header), taskId).Granted?
  {
    var o := UserRoutes.Signup(env, store, body, freshId, now);
    var u := o.response.body.user;
    var token := o.response.body.token;
    assert u.id !in UserIds(store.users);
    assert UniqueUserIds(o.store.users) by {
      forall i, j | 0 <= i < j < |o.store.users| ensures o.store.users[i].id != o.store.users[j].id {
        if j == |store.users| {
          assert store.users[i] in store.users;
        }
      }
    }
    BearerTokenOfHeader(token);
    assert u in o.store.users && token in u.tokens;
    GrantedUserIsTheOne(env, o.store, Some(BearerPrefix + token), taskId, u);
    if Authenticate(env, store, Some(header), taskId).Granted? {
      var w :| w in store.users && w.id == env.verify(BearerToken(header)).value && BearerToken(header) in w.tokens;
      assert w in o.store.users;
    }
  }
}

=== FILE: task_routes.dfy ===
/** The task routes (src/routers/task.js): create, list, patch and delete, each
    scoped to the acting user's own tasks. */
module TaskRoutes {
  import opened Optional
  import opened Model
  import opened Http
  import opened Auth
  import Seqs
  import Text

  /** The only keys PATCH /tasks/:id accepts. */
  const EditableFields: seq<string> := ["description", "completed"]

  const InvalidUpdate: string := "Invalid update!"

  /** A JSON body carrying task fields: its keys, and a value for `_id`, `description`,
      `completed` and `owner`, each read only when its key is among the keys. */
  datatype TaskBody = TaskBody(keys: seq<string>, id: TaskId, description: string, completed: bool, owner: UserId)

  /** The task schema accepts the document: a description that is still non-empty
      once trimmed, and whatever else its validators ask. */
  predicate Saves(env: Env, t: Task) {
    t.description != "" && env.validTask(t)
  }

  /** `new Task({ ...body, owner: user._id })`: the body's fields, except that the
      owner is always the acting user; `completed` defaults to false and the
      description is trimmed. */
  function NewTask(ctx: Context, body: TaskBody, freshId: TaskId): (t: Task)
    ensures t.owner == ctx.user.id
    ensures t.completed == ("completed" in body.keys && body.completed)
    ensures t.id == if "_id" in body.keys then body.id else freshId
    ensures t.description == Text.Trim(if "description" in body.keys then body.description else "")
  {
    Task(
      if "_id" in body.keys then body.id else freshId,
      Text.Trim(if "description" in body.keys then body.description else ""),
      if "completed" in body.keys then body.completed else false,
      ctx.user.id)
  }

  /** POST /tasks. A document the schema refuses, or whose id is taken, is a 400 that
      stores nothing; otherwise the task is appended and returned with 201. */
  function CreateTask(env: Env, store: Store, ctx: Context, body: TaskBody, freshId: TaskId): (o: Outcome)
    ensures o.response.status == Created || o.response.status == BadRequest
    ensures o.response.status == Created <==>
      Saves(env, NewTask(ctx, body, freshId)) && NewTask(ctx, body, freshId).id !in TaskIds(store.tasks)
    ensures o.response.status == BadRequest ==> o.store == store
    ensures o.response.status == Created ==>
      && o.response.body == TaskDoc(NewTask(ctx, body, freshId))
      && o.response.body.task.owner == ctx.user.id
      && o.store == store.(tasks := store.tasks + [o.response.body.task])
  {
    var t := NewTask(ctx, body, freshId);
    if !Saves(env, t) || t.id in TaskIds(store.tasks) then Reject(store, BadRequest, Empty)
    else Outcome(Response(Created, TaskDoc(t)), store.(tasks := store.tasks + [t]))
  }

  /** A description that is blank (white space only, or missing) is refused and
      nothing is stored, whatever the rest of the body says. */
  lemma BlankDescriptionRefused(env: Env, store: Store, ctx: Context, body: TaskBody, freshId: TaskId)
    requires !("description" in body.keys) || Text.IsBlank(body.description)
    ensures CreateTask(env, store, ctx, body, freshId) == Reject(store, BadRequest, Empty)
  {
    Text.TrimEmptyIffBlank(if "description" in body.keys then body.description else "");
  }

  /** The `completed` query: an absent or empty value filters nothing; any other
      value selects the tasks whose `completed` equals `value === 'true'`. */
  function CompletedFilter(query: Option<string>): (r: Option<bool>)
    ensures r.None? <==> query.None? || query.value == ""
  {
    match query
    case None => None
    case Some(q) => if q == "" then None else Some(q == "true")
  }

  /** Only the exact string `"true"` selects completed tasks: `"false"` and `"yes"`
      both select incomplete ones, and an empty value selects everything. */
  lemma CompletedFilterValues()
    ensures CompletedFilter(Some("true")) == Some(true)
    ensures CompletedFilter(Some("false")) == Some(false)
    ensures CompletedFilter(Some("yes")) == Some(false)
    ensures CompletedFilter(Some("True")) == Some(false)
    ensures CompletedFilter(Some("")) == None
  {
  }

  /** The `sortBy` query split on `:`: the first piece is the field, and the order is
      descending exactly when the second piece is `desc`. An absent or empty value
      asks for no sort. */
  function SortOrderOf(query: Option<string>): (r: Option<SortOrder>)
    ensures r.None? <==> query.None? || query.value == ""
    ensures r.Some? ==> r.value.direction == 1 || r.value.direction == -1
    ensures r.Some? ==> ':' !in r.value.field
  {
    match query
    case None => None
    case Some(q) =>
      if q == "" then None
      else
        var parts := Text.Split(q, ':');
        Some(SortOrder(parts[0], if |parts| > 1 && parts[1] == "desc" then -1 else 1))
  }

  /** `field:dir` followed by nothing or by further `:`-pieces sorts on `field`,
      descending exactly when `dir` is `desc`; the further pieces are ignored. */
  lemma SortOrderOfFieldAndDirection(field: string, dir: string, rest: string)
    requires ':' !in field && ':' !in dir
    requires rest == "" || rest[0] == ':'
    ensures SortOrderOf(Some(field + ":" + dir + rest)) ==
      Some(SortOrder(field, if dir == "desc" then -1 else 1))
  {
    var q := field + ":" + dir + rest;
    assert q == field + [':'] + (dir + rest);
    Text.SplitAtFirst(field, ':', dir + rest);
    if rest == "" {
      assert dir + rest == dir;
      Text.SplitNoSep(dir, ':');
    } else {
      assert dir + rest == dir + [':'] + rest[1..];
      Text.SplitAtFirst(dir, ':', rest[1..]);
    }
  }

  /** A bare field name, with no `:` at all, sorts ascending on it. */
  lemma SortOrderOfFieldOnly(field: string)
    requires ':' !in field && field != ""
    ensures SortOrderOf(Some(field)) == Some(SortOrder(field, 1))
  {
    Text.SplitNoSep(field, ':');
  }

  /** The tasks the list shows: the caller's own, passing the `completed` filter. */
  predicate Shown(owner: UserId, filter: Option<bool>, t: Task) {
    t.owner == owner && (filter.None? || t.completed == filter.value)
  }

  /** GET /tasks: the caller's tasks matching the `completed` filter, in collection
      order, with the sort the database is asked to apply. Nothing is written. */
  function ListTasks(store: Store, ctx: Context, completed: Option<string>, sortBy: Option<string>): (o: Outcome)
    ensures o.store == store && o.response.status == Ok
    ensures o.response.body.TaskList?
    ensures forall t :: t in o.response.body.tasks <==>
      t in store.tasks && t.owner == ctx.user.id
      && (completed.None? || completed.value == "" || t.completed == (completed.value == "true"))
    ensures forall t :: Seqs.Count(o.response.body.tasks, t) ==
                        (if Shown(ctx.user.id, CompletedFilter(completed), t) then Seqs.Count(store.tasks, t) else 0)
    ensures o.response.body.sort == SortOrderOf(sortBy)
  {
    var filter := CompletedFilter(completed);
    Seqs.FilterCountAll(store.tasks, (t: Task) => Shown(ctx.user.id, filter, t));
    var tasks := Seqs.Filter(store.tasks, (t: Task) => Shown(ctx.user.id, filter, t));
    Outcome(Response(Ok, TaskList(tasks, SortOrderOf(sortBy))), store)
  }

  /** A body for PATCH /tasks/:id: its keys, and a value for `description` and
      `completed`, each read only when its key is among the keys. */
  datatype TaskPatch = TaskPatch(keys: seq<string>, description: string, completed: bool)

  predicate AllEditable(keys: seq<string>) {
    forall k :: k in keys ==> k in EditableFields
  }

  /** `keys.forEach(key => task[key] = body[key])` for allowed keys, the description
      going through the schema's trim. */
  function Edit(t: Task, patch: TaskPatch): (r: Task)
    ensures r.id == t.id && r.owner == t.owner
  {
    t.(description := if "description" in patch.keys then Text.Trim(patch.description) else t.description,
       completed := if "completed" in patch.keys then patch.completed else t.completed)
  }

  /** Only position `i` of the task collection may differ, and no user does. */
  predicate OnlyTaskChanged(before: Store, after: Store, i: nat) {
    && after.users == before.users
    && |after.tasks| == |before.tasks|
    && forall j :: 0 <= j < |before.tasks| && j != i ==> after.tasks[j] == before.tasks[j]
  }

  /** The caller owns a task with this id. */
  predicate OwnsTask(store: Store, owner: UserId, id: TaskId) {
    exists t :: t in store.tasks && t.id == id && t.owner == owner
  }

  /** PATCH /tasks/:id. One key outside the allow-list rejects the body; a task that is
      missing or not the caller's is a 404; a result the schema refuses is a 400. In
      all three cases nothing is written. */
  function UpdateTask(env: Env, store: Store, ctx: Context, id: TaskId, patch: TaskPatch): (o: Outcome)
    ensures o.response.status in {Ok, BadRequest, NotFound}
    ensures o.response.status != Ok ==> o.store == store
    ensures !AllEditable(patch.keys) ==> o.response == Response(BadRequest, Error(InvalidUpdate))
    ensures AllEditable(patch.keys) ==>
      (o.response.status == NotFound <==> !OwnsTask(store, ctx.user.id, id))
    ensures AllEditable(patch.keys) && OwnsTask(store, ctx.user.id, id) ==>
      (o.response.status == Ok <==>
         Saves(env, Edit(store.tasks[FindOwnedTask(store.tasks, id, ctx.user.id).value], patch)))
    ensures o.response.status == Ok ==>
      && o.response.body.TaskDoc?
      && var i := FindOwnedTask(store.tasks, id, ctx.user.id).value;
      && var t := o.response.body.task;
      && t.id == id && t.owner == ctx.user.id
      && t.description == (if "description" in patch.keys then Text.Trim(patch.description) else store.tasks[i].description)
      && t.completed == (if "completed" in patch.keys then patch.completed else store.tasks[i].completed)
      && Saves(env, t)
      && OnlyTaskChanged(store, o.store, i)
      && o.store.tasks[i] == t
  {
    if !AllEditable(patch.keys) then
      Reject(store, BadRequest, Error(InvalidUpdate))
    else
      match FindOwnedTask(store.tasks, id, ctx.user.id)
      case None => Reject(store, NotFound, Empty)
      case Some(i) =>
        var t := Edit(store.tasks[i], patch);
        if !Saves(env, t) then Reject(store, BadRequest, Rejection)
        else Outcome(Response(Ok, TaskDoc(t)), store.(tasks := store.tasks[i := t]))
  }

  /** DELETE /tasks/:id. The task with this id is removed if the caller owns it and
      sent back; otherwise the answer is 404 and nothing is removed. */
  function DeleteTask(store: Store, ctx: Context, id: TaskId): (o: Outcome)
    ensures o.response.status == Ok || o.response.status == NotFound
    ensures o.response.status == NotFound <==> !OwnsTask(store, ctx.user.id, id)
    ensures o.response.status == NotFound ==> o.store == store
    ensures o.response.status == Ok ==>
      && o.response.body.TaskDoc?
      && o.response.body.task.id == id && o.response.body.task.owner == ctx.user.id
      && o.store.users == store.users
      && exists i :: 0 <= i < |store.tasks| && store.tasks[i] == o.response.body.task
           && o.store.tasks == Seqs.RemoveAt(store.tasks, i)
  {
    match FindOwnedTask(store.tasks, id, ctx.user.id)
    case None => Reject(store, NotFound, Empty)
    case Some(i) =>
      Outcome(Response(Ok, TaskDoc(store.tasks[i])), store.(tasks := Seqs.RemoveAt(store.tasks, i)))
  }
}

=== FILE: text.dfy ===
/** The JavaScript string operations the routes rely on, written over `seq<char>`:
    `String.prototype.replace` with a string pattern, `split` on a one-character
    separator, `trim`, and the end-anchored match of the avatar name filter. */
module Text {
  import opened Optional

  /** `pat` occurs in `s` starting at position `i`. */
  predicate OccursAt(s: string, pat: string, i: nat) {
    i + |pat| <= |s| && s[i..i + |pat|] == pat
  }

  /** The first position at or after `k` where `pat` occurs in `s`. */
  function IndexOfFrom(s: string, pat: string, k: nat): (r: Option<nat>)
    requires k <= |s|
    ensures r.Some? ==> k <= r.value && OccursAt(s, pat, r.value)
    ensures r.Some? ==> forall j :: k <= j < r.value ==> !OccursAt(s, pat, j)
    ensures r.None? <==> forall j :: k <= j <= |s| ==> !OccursAt(s, pat, j)
    decreases |s| - k
  {
    if OccursAt(s, pat, k) then Some(k)
    else if k == |s| then None
    else IndexOfFrom(s, pat, k + 1)
  }

  /** The first position where `pat` occurs in `s`, as `indexOf` reports it. */
  function IndexOf(s: string, pat: string): (r: Option<nat>)
    ensures r.Some? ==> OccursAt(s, pat, r.value)
    ensures r.Some? ==> forall j :: 0 <= j < r.value ==> !OccursAt(s, pat, j)
    ensures r.None? <==> forall j :: 0 <= j <= |s| ==> !OccursAt(s, pat, j)
  {
    IndexOfFrom(s, pat, 0)
  }

  /** No occurrence of `pat` in `s` starts before position `k`. */
  predicate NoneBefore(s: string, pat: string, k: nat) {
    forall j :: 0 <= j < k ==> !OccursAt(s, pat, j)
  }

  /** Where `s` is `a + pat + b` with no earlier occurrence, the first occurrence is
      the one right after `a`, and the slices around it are `a` and `b`. */
  lemma FirstOccurrenceSplits(s: string, pat: string)
    ensures forall a, b :: s == a + pat + b && NoneBefore(s, pat, |a|) ==>
      && IndexOf(s, pat) == Some(|a|)
      && s[..|a|] == a && s[|a| + |pat|..] == b
  {
    forall a, b | s == a + pat + b && NoneBefore(s, pat, |a|)
      ensures IndexOf(s, pat) == Some(|a|) && s[..|a|] == a && s[|a| + |pat|..] == b
    {
      assert s[|a|..|a| + |pat|] == pat;
      assert OccursAt(s, pat, |a|);
    }
  }

  /** `s.replace(pat, rep)` for a string `pat` and a replacement containing no `$`
      patterns: only the first occurrence is replaced, and a string without an
      occurrence comes back unchanged. */
  function ReplaceFirst(s: string, pat: string, rep: string): (r: string)
    ensures IndexOf(s, pat).None? ==> r == s
    ensures IndexOf(s, pat).Some? ==> |r| == |s| - |pat| + |rep|
    ensures forall a, b :: s == a + pat + b && NoneBefore(s, pat, |a|) ==> r == a + rep + b
  {
    FirstOccurrenceSplits(s, pat);
    match IndexOf(s, pat)
    case None => s
    case Some(i) => s[..i] + rep + s[i + |pat|..]
  }

  /** Replacing in `a + pat + b`, where `pat` starts nowhere inside `a`, swaps exactly
      that occurrence: whatever follows it, further occurrences included, is kept. */
  lemma ReplaceFirstAt(a: string, pat: string, b: string, rep: string)
    requires forall j :: 0 <= j < |a| ==> !OccursAt(a + pat + b, pat, j)
    ensures ReplaceFirst(a + pat + b, pat, rep) == a + rep + b
  {
    assert NoneBefore(a + pat + b, pat, |a|);
  }

  /** `s` ends with `suffix`. */
  predicate EndsWith(s: string, suffix: string) {
    |suffix| <= |s| && s[|s| - |suffix|..] == suffix
  }

  /** The characters `String.prototype.trim` removes: ECMAScript WhiteSpace
      (tab, vertical tab, form feed, space, no-break space, byte order mark and
      the Unicode space separators) and LineTerminator. */
  predicate IsSpace(c: char) {
    || c == '\t' || c == '\n' || c == '\U{000B}' || c == '\U{000C}' || c == '\r' || c == ' '
    || c == '\U{00A0}' || c == '\U{1680}' || ('\U{2000}' <= c <= '\U{200A}')
    || c == '\U{2028}' || c == '\U{2029}' || c == '\U{202F}' || c == '\U{205F}'
    || c == '\U{3000}' || c == '\U{FEFF}'
  }

  /** Every character of `s` is white space (the empty string included). */
  predicate IsBlank(s: string) {
    forall i :: 0 <= i < |s| ==> IsSpace(s[i])
  }

  /** `s` without its leading white space. */
  function TrimStart(s: string): (r: string)
    ensures |r| <= |s| && r == s[|s| - |r|..]
    ensures IsBlank(s[..|s| - |r|])
    ensures r == [] || !IsSpace(r[0])
  {
    if |s| == 0 || !IsSpace(s[0]) then s
    else
      var r := TrimStart(s[1..]);
      assert forall k :: 1 <= k < |s| - |r| ==> s[k] == s[1..][..|s| - 1 - |r|][k - 1];
      r
  }

  /** `s` without its trailing white space. */
  function TrimEnd(s: string): (r: string)
    ensures |r| <= |s| && r == s[..|r|]
    ensures IsBlank(s[|r|..])
    ensures r == [] || !IsSpace(r[|r| - 1])
  {
    if |s| == 0 || !IsSpace(s[|s| - 1]) then s
    else
      var r := TrimEnd(s[..|s| - 1]);
      assert s[..|s| - 1][..|r|] == s[..|r|];
      assert forall k :: |r| <= k < |s| - 1 ==> s[k] == s[..|s| - 1][|r|..][k - |r|];
      r
  }

  /** `s.trim()`: the longest middle slice of `s` that neither starts nor ends with
      white space, everything cut away being white space. */
  function Trim(s: string): (r: string)
    ensures exists i, j :: 0 <= i <= j <= |s| && r == s[i..j] && IsBlank(s[..i]) && IsBlank(s[j..])
    ensures r == [] || (!IsSpace(r[0]) && !IsSpace(r[|r| - 1]))
  {
    TrimBothEnds(s);
    TrimEnd(TrimStart(s))
  }

  /** Cutting the leading, then the trailing white space leaves a middle slice. */
  lemma TrimBothEnds(s: string)
    ensures var r := TrimEnd(TrimStart(s));
      && (exists i, j :: 0 <= i <= j <= |s| && r == s[i..j] && IsBlank(s[..i]) && IsBlank(s[j..]))
      && (r == [] || (!IsSpace(r[0]) && !IsSpace(r[|r| - 1])))
  {
    var t := TrimStart(s);
    var r := TrimEnd(t);
    var i := |s| - |t|;
    var j := i + |r|;
    assert r == s[i..j] by {
      assert t == s[i..];
    }
    assert IsBlank(s[j..]) by {
      assert s[j..] == t[|r|..];
    }
    assert r == [] || !IsSpace(r[0]) by {
      if r != [] {
        assert r[0] == t[0];
      }
    }
  }

  /** A string trims to nothing exactly when it is blank, which is how a required,
      trimmed field treats white space. */
  lemma TrimEmptyIffBlank(s: string)
    ensures Trim(s) == [] <==> IsBlank(s)
  {
  }

  /** `s.split(sep)` for a one-character separator: the pieces between separators,
      never fewer than one, none containing the separator. */
  function Split(s: string, sep: char): (parts: seq<string>)
    ensures |parts| >= 1
    ensures forall i :: 0 <= i < |parts| ==> sep !in parts[i]
    ensures Join(parts, sep) == s
    decreases |s|
  {
    if |s| == 0 then [""]
    else
      var rest := Split(s[1..], sep);
      if s[0] == sep then
        assert ([""] + rest)[1..] == rest;
        [""] + rest
      else
        var parts := [[s[0]] + rest[0]] + rest[1..];
        assert |rest| > 1 ==> Join(rest, sep) == rest[0] + [sep] + Join(rest[1..], sep);
        assert parts[1..] == rest[1..];
        assert s == [s[0]] + s[1..];
        parts
  }

  /** The pieces glued back together with the separator between them. */
  function Join(parts: seq<string>, sep: char): string {
    if |parts| == 0 then ""
    else if |parts| == 1 then parts[0]
    else parts[0] + [sep] + Join(parts[1..], sep)
  }

  /** A string without the separator is a single piece. */
  lemma {:induction false} SplitNoSep(a: string, sep: char)
    requires sep !in a
    ensures Split(a, sep) == [a]
  {
    if |a| != 0 {
      assert sep !in a[1..];
      SplitNoSep(a[1..], sep);
      assert [a[0]] + a[1..] == a;
    }
  }

  /** The first separator ends the first piece. */
  lemma {:induction false} SplitAtFirst(a: string, sep: char, b: string)
    requires sep !in a
    ensures Split(a + [sep] + b, sep) == [a] + Split(b, sep)
  {
    var s := a + [sep] + b;
    if |a| == 0 {
      assert s[1..] == b;
    } else {
      assert s[1..] == a[1..] + [sep] + b;
      SplitAtFirst(a[1..], sep, b);
      assert [a[0]] + a[1..] == a;
    }
  }

  /** Splitting undoes joining pieces that do not contain the separator. */
  lemma {:induction false} SplitJoin(parts: seq<string>, sep: char)
    requires |parts| >= 1
    requires forall i :: 0 <= i < |parts| ==> sep !in parts[i]
    ensures Split(Join(parts, sep), sep) == parts
  {
    if |parts| == 1 {
      SplitNoSep(parts[0], sep);
    } else {
      SplitJoin(parts[1..], sep);
      SplitAtFirst(parts[0], sep, Join(parts[1..], sep));
      assert [parts[0]] + parts[1..] == parts;
    }
  }
}

=== FILE: user_routes.dfy ===
/** The user routes (src/routers/user.js): signup, login, logout, logout of every
    session, reading and patching one's own profile, and the avatar. */
module UserRoutes {
  import opened Optional
  import opened Model
  import opened Http
  import opened Auth
  import Seqs
  import Text

  /** The only keys PATCH /users/me accepts. */
  const UpdatableFields: seq<string> := ["name", "age", "email", "password"]

  const InvalidUpdates: string := "Invalid updates!"

  /** A JSON body carrying user fields: its keys in order, and a value for each profile
      field, which is read only when that field's key is among the keys. */
  datatype ProfileBody = ProfileBody(keys: seq<string>, name: string, email: string, password: string, age: int)

  /** `user[key] = body[key]` for one key. */
  function Assign(u: User, key: string, body: ProfileBody): User {
    if key == "name" then u.(name := body.name)
    else if key == "age" then u.(age := body.age)
    else if key == "email" then u.(email := body.email)
    else if key == "password" then u.(password := body.password)
    else u
  }

  /** `keys.forEach(key => user[key] = body[key])`: each profile field named by a key
      takes the body's value, and nothing else about the user changes. */
  function AssignAll(u: User, body: ProfileBody, keys: seq<string>): (r: User)
    ensures r.id == u.id && r.tokens == u.tokens && r.avatar == u.avatar
    ensures r.name == if "name" in keys then body.name else u.name
    ensures r.age == if "age" in keys then body.age else u.age
    ensures r.email == if "email" in keys then body.email else u.email
    ensures r.password == if "password" in keys then body.password else u.password
    decreases keys
  {
    if |keys| == 0 then u
    else
      var r := AssignAll(Assign(u, keys[0], body), body, keys[1..]);
      assert forall k :: k in keys <==> k == keys[0] || k in keys[1..];
      r
  }

  /** The document `new User(body)` builds: the profile fields the body names, age 0
      by default, no session and no avatar. An absent string field stays empty. */
  function NewUser(id: UserId, body: ProfileBody): (u: User)
    ensures u.id == id && u.tokens == [] && u.avatar == None
    ensures u.name == if "name" in body.keys then body.name else ""
    ensures u.email == if "email" in body.keys then body.email else ""
    ensures u.password == if "password" in body.keys then body.password else ""
    ensures u.age == if "age" in body.keys then body.age else 0
  {
    AssignAll(User(id, "", "", "", 0, [], None), body, body.keys)
  }

  /** No user other than `id` holds `email`. */
  predicate EmailFree(users: seq<User>, email: string, id: UserId) {
    forall v :: v in users && v.id != id ==> v.email != email
  }

  /** `save()` of this user document goes through: the schema accepts it and the
      unique email index does not object. */
  predicate Saves(env: Env, users: seq<User>, u: User) {
    env.validUser(u) && EmailFree(users, u.email, u.id)
  }

  /** Only the user stored under `id` may differ between the two stores. */
  predicate OnlyUserChanged(before: Store, after: Store, id: UserId) {
    && after.tasks == before.tasks
    && |after.users| == |before.users|
    && forall j :: 0 <= j < |before.users| && before.users[j].id != id ==> after.users[j] == before.users[j]
  }

  /** Saving `u` over the stored document with its id. */
  function SaveUser(store: Store, u: User): (s: Store)
    ensures OnlyUserChanged(store, s, u.id)
    ensures u.id in UserIds(store.users) ==> u in s.users
    ensures forall v :: v in s.users ==> v in store.users || v == u
    ensures UniqueUserIds(store.users) ==>
      forall j :: 0 <= j < |store.users| && store.users[j].id == u.id ==> s.users[j] == u
    ensures forall j :: 0 <= j < |s.users| ==> s.users[j].id == store.users[j].id
  {
    var s := store.(users := PutUser(store.users, u));
    assert forall v :: v in s.users ==> v in store.users || v == u by {
      forall v | v in s.users ensures v in store.users || v == u {
        var j :| 0 <= j < |s.users| && s.users[j] == v;
        assert s.users[j] == store.users[j] || s.users[j] == u;
      }
    }
    s
  }

  /** POST /users. The new document is saved and then given its first token; a
      document the schema or the email index refuses (or whose id is taken) is a 400
      that stores nothing. */
  function Signup(env: Env, store: Store, body: ProfileBody, freshId: UserId, now: nat): (o: Outcome)
    ensures o.response.status == Created || o.response.status == BadRequest
    ensures o.response.status == Created <==>
      Saves(env, store.users, NewUser(freshId, body)) && freshId !in UserIds(store.users)
    ensures o.response.status == BadRequest ==> o.store == store
    ensures o.response.status == Created ==>
      && o.response.body.Session?
      && var u := o.response.body.user;
      && u == NewUser(freshId, body).(tokens := [o.response.body.token])
      && o.response.body.token == env.sign(freshId, now)
      && o.store == store.(users := store.users + [u])
  {
    var u := NewUser(freshId, body);
    if !Saves(env, store.users, u) || freshId in UserIds(store.users) then
      Reject(store, BadRequest, Rejection)
    else
      var token := env.sign(freshId, now);
      var saved := u.(tokens := u.tokens + [token]);
      Outcome(Response(Created, Session(saved, token)), store.(users := store.users + [saved]))
  }

  /** `User.findByCredentials(email, password)`: the user `findOne({ email })` returns,
      provided the password matches what is stored for it. */
  function FindByCredentials(env: Env, users: seq<User>, email: string, password: string): (r: Option<nat>)
    ensures r.Some? ==> r.value < |users| && users[r.value].email == email
    ensures r.Some? ==> env.passwordMatches(password, users[r.value].password)
  {
    match Seqs.FirstIndex(users, (u: User) => u.email == email)
    case None => None
    case Some(i) => if env.passwordMatches(password, users[i].password) then Some(i) else None
  }

  /** With unique emails, the credentials are accepted exactly when some user has
      this email and the password matches it: an unknown email and a wrong password
      are indistinguishable failures. */
  lemma FindByCredentialsIff(env: Env, users: seq<User>, email: string, password: string)
    requires UniqueEmails(users)
    ensures FindByCredentials(env, users, email, password).Some? <==>
      exists v :: v in users && v.email == email && env.passwordMatches(password, v.password)
  {
    var f := Seqs.FirstIndex(users, (u: User) => u.email == email);
    if v :| v in users && v.email == email && env.passwordMatches(password, v.password) {
      var j :| 0 <= j < |users| && users[j] == v;
      assert f.Some?;
      assert f.value == j by {
        if f.value < j { } else if f.value > j { }
      }
    }
  }

  /** POST /users/login. The user found by the credentials gets one more token at the
      end of its list; bad credentials are a 400 that changes nothing. */
  function Login(env: Env, store: Store, email: string, password: string, now: nat): (o: Outcome)
    ensures o.response.status == Ok || o.response.status == BadRequest
    ensures o.response.status == Ok <==> FindByCredentials(env, store.users, email, password).Some?
    ensures o.response.status == BadRequest ==> o.store == store
    ensures o.response.status == Ok ==>
      var before := store.users[FindByCredentials(env, store.users, email, password).value];
      && o.response.body.Session?
      && var after := o.response.body.user;
      && after == before.(tokens := before.tokens + [o.response.body.token])
      && o.response.body.token == env.sign(before.id, now)
      && OnlyUserChanged(store, o.store, before.id)
      && after in o.store.users
  {
    match FindByCredentials(env, store.users, email, password)
    case None => Reject(store, BadRequest, Rejection)
    case Some(i) =>
      var user := store.users[i];
      assert user.id in UserIds(store.users);
      var token := env.sign(user.id, now);
      var saved := user.(tokens := user.tokens + [token]);
      Outcome(Response(Ok, Session(saved, token)), SaveUser(store, saved))
  }

  /** The token list after logging out of `token`: every entry equal to it is gone,
      every other entry stays as often as it was there. */
  function Revoke(tokens: seq<Token>, token: Token): (r: seq<Token>)
    ensures token !in r
    ensures forall t :: t != token ==> Seqs.Count(r, t) == Seqs.Count(tokens, t)
    ensures forall t :: t in r <==> t in tokens && t != token
  {
    Seqs.FilterCountAll(tokens, (t: Token) => t != token);
    Seqs.Filter(tokens, (t: Token) => t != token)
  }

  /** Revoking works piece by piece, so the surviving tokens keep their order. */
  lemma RevokeKeepsOrder(a: seq<Token>, b: seq<Token>, token: Token)
    ensures Revoke(a + b, token) == Revoke(a, token) + Revoke(b, token)
  {
    Seqs.FilterConcat(a, b, (t: Token) => t != token);
  }

  /** A list without the token is left as it is. */
  lemma RevokeAbsent(tokens: seq<Token>, token: Token)
    requires token !in tokens
    ensures Revoke(tokens, token) == tokens
  {
    Seqs.FilterAll(tokens, (t: Token) => t != token);
  }

  /** POST /users/logout: the caller's stored token list loses the presented token. */
  function Logout(store: Store, ctx: Context): (o: Outcome)
    ensures o.response == Response(Ok, Empty)
    ensures OnlyUserChanged(store, o.store, ctx.user.id)
    ensures ctx.user in store.users ==> ctx.user.(tokens := Revoke(ctx.user.tokens, ctx.token)) in o.store.users
    ensures forall v :: v in o.store.users ==> v in store.users || v == ctx.user.(tokens := Revoke(ctx.user.tokens, ctx.token))
  {
    var saved := ctx.user.(tokens := Revoke(ctx.user.tokens, ctx.token));
    Outcome(Response(Ok, Empty), SaveUser(store, saved))
  }

  /** POST /users/logoutall: the caller's stored token list is emptied. */
  function LogoutAll(store: Store, ctx: Context): (o: Outcome)
    ensures o.response == Response(Ok, Empty)
    ensures OnlyUserChanged(store, o.store, ctx.user.id)
    ensures ctx.user in store.users ==> ctx.user.(tokens := []) in o.store.users
    ensures forall v :: v in o.store.users ==> v in store.users || v == ctx.user.(tokens := [])
  {
    Outcome(Response(Ok, Empty), SaveUser(store, ctx.user.(tokens := [])))
  }

  /** GET /users/me. */
  function ReadProfile(store: Store, ctx: Context): (o: Outcome)
    ensures o.store == store && o.response.status == Ok
  {
    Outcome(Response(Ok, Profile(ctx.user)), store)
  }

  /** Every key of the body is one PATCH /users/me accepts. */
  predicate AllUpdatable(keys: seq<string>) {
    forall k :: k in keys ==> k in UpdatableFields
  }

  /** PATCH /users/me. One key outside the allow-list rejects the whole body; otherwise
      the named fields are overwritten and the document saved, and a save the schema
      or the email index refuses is a 400 that changes nothing. */
  function UpdateProfile(env: Env, store: Store, ctx: Context, body: ProfileBody): (o: Outcome)
    ensures o.response.status == Ok || o.response.status == BadRequest
    ensures o.response.status == BadRequest ==> o.store == store
    ensures !AllUpdatable(body.keys) ==> o.response == Response(BadRequest, Error(InvalidUpdates))
    ensures o.response.status == Ok <==>
      AllUpdatable(body.keys) && Saves(env, store.users, AssignAll(ctx.user, body, body.keys))
    ensures o.response.status == Ok ==>
      && o.response.body.Profile?
      && var u := o.response.body.user;
      && u.id == ctx.user.id && u.tokens == ctx.user.tokens && u.avatar == ctx.user.avatar
      && u.name == (if "name" in body.keys then body.name else ctx.user.name)
      && u.age == (if "age" in body.keys then body.age else ctx.user.age)
      && u.email == (if "email" in body.keys then body.email else ctx.user.email)
      && u.password == (if "password" in body.keys then body.password else ctx.user.password)
      && OnlyUserChanged(store, o.store, ctx.user.id)
      && (ctx.user in store.users ==> u in o.store.users)
  {
    if !AllUpdatable(body.keys) then
      Reject(store, BadRequest, Error(InvalidUpdates))
    else
      var u := AssignAll(ctx.user, body, body.keys);
      if !Saves(env, store.users, u) then Reject(store, BadRequest, Rejection)
      else Outcome(Response(Ok, Profile(u)), SaveUser(store, u))
  }

  /** The upload limit on the avatar, in bytes. */
  const MaxAvatarBytes: nat := 1000000

  const NotAnImage: string := "Please upload an image file!"

  /** The message the upload middleware gives a file over the limit. */
  const FileTooLarge: string := "File too large"

  /** An uploaded file: the name it had on the client and its bytes. */
  datatype Upload = Upload(originalName: string, buffer: Bytes)

  /** The file filter: the name ends in `.jpg`, `.jpeg` or `.png`, in that case. */
  predicate ImageFileName(name: string) {
    Text.EndsWith(name, ".jpg") || Text.EndsWith(name, ".jpeg") || Text.EndsWith(name, ".png")
  }

  /** The alternatives of the pattern's group. */
  predicate ImageExtension(ext: string) {
    ext == "jpg" || ext == "jpeg" || ext == "png"
  }

  /** What the pattern `\.(jpg|jpeg|png)$` matches: somewhere a dot, followed by one
      of the three extensions that runs to the end of the name. */
  predicate MatchesImagePattern(name: string) {
    exists i :: 0 <= i < |name| && name[i] == '.' && ImageExtension(name[i + 1..])
  }

  /** A name ending in a dot and an extension matches at that dot. */
  lemma EndsWithMatches(name: string, ext: string)
    requires ImageExtension(ext) && Text.EndsWith(name, "." + ext)
    ensures MatchesImagePattern(name)
  {
    var i := |name| - |ext| - 1;
    assert name[i..] == "." + ext;
    assert name[i] == '.';
    assert name[i + 1..] == ext;
  }

  /** A match at a dot means the name ends in that dot and extension. */
  lemma MatchesEndsWith(name: string, i: nat)
    requires i < |name| && name[i] == '.' && ImageExtension(name[i + 1..])
    ensures ImageFileName(name)
  {
    var ext := name[i + 1..];
    assert name[i..] == "." + ext;
    if ext == "jpg" {
      assert Text.EndsWith(name, ".jpg");
    } else if ext == "jpeg" {
      assert Text.EndsWith(name, ".jpeg");
    } else {
      assert Text.EndsWith(name, ".png");
    }
  }

  /** The suffix test is the pattern's meaning. */
  lemma ImageFileNameIsPattern(name: string)
    ensures ImageFileName(name) <==> MatchesImagePattern(name)
  {
    if ImageFileName(name) {
      if Text.EndsWith(name, ".jpg") {
        EndsWithMatches(name, "jpg");
      } else if Text.EndsWith(name, ".jpeg") {
        EndsWithMatches(name, "jpeg");
      } else {
        EndsWithMatches(name, "png");
      }
    } else if MatchesImagePattern(name) {
      var i :| 0 <= i < |name| && name[i] == '.' && ImageExtension(name[i + 1..]);
      MatchesEndsWith(name, i);
    }
  }

  /** The filter is case-sensitive: an upper-case extension is refused. */
  lemma UpperCaseExtensionRefused()
    ensures !ImageFileName("me.JPG") && ImageFileName("me.jpg")
  {
    assert "me.JPG"[2..] == ".JPG";
    assert "me.JPG"[1..] == "e.JPG";
    assert "me.jpg"[2..] == ".jpg";
  }

  /** POST /users/me/avatar. The file filter runs first, then the size limit; a file
      that passes both is transcoded and becomes the avatar. */
  function UploadAvatar(env: Env, store: Store, ctx: Context, file: Upload): (o: Outcome)
    ensures o.response.status == Ok || o.response.status == BadRequest
    ensures o.response.status == Ok <==>
      ImageFileName(file.originalName) && |file.buffer| <= MaxAvatarBytes
    ensures !ImageFileName(file.originalName) ==> o.response == Response(BadRequest, Error(NotAnImage))
    ensures o.response.status == BadRequest ==> o.store == store
    ensures o.response.status == Ok ==>
      && OnlyUserChanged(store, o.store, ctx.user.id)
      && (ctx.user in store.users ==> ctx.user.(avatar := Some(env.transcode(file.buffer))) in o.store.users)
  {
    if !ImageFileName(file.originalName) then
      Reject(store, BadRequest, Error(NotAnImage))
    else if |file.buffer| > MaxAvatarBytes then
      Reject(store, BadRequest, Error(FileTooLarge))
    else
      var saved := ctx.user.(avatar := Some(env.transcode(file.buffer)));
      Outcome(Response(Ok, Empty), SaveUser(store, saved))
  }

  /** DELETE /users/me/avatar: the caller's avatar is cleared. */
  function DeleteAvatar(store: Store, ctx: Context): (o: Outcome)
    ensures o.response.status == Ok
    ensures OnlyUserChanged(store, o.store, ctx.user.id)
    ensures ctx.user in store.users ==> ctx.user.(avatar := None) in o.store.users
  {
    Outcome(Response(Ok, Empty), SaveUser(store, ctx.user.(avatar := None)))
  }

  /** GET /users/:id/avatar, which needs no session: the stored bytes of that user's
      avatar (an empty one included), or 404 when there is no such user or no avatar. */
  function ReadAvatar(store: Store, id: UserId): (o: Outcome)
    ensures o.store == store
    ensures o.response.status == Ok || o.response.status == NotFound
    ensures o.response.status == NotFound <==>
      id !in UserIds(store.users) || store.users[FindUser(store.users, id).value].avatar.None?
    ensures o.response.status == Ok ==>
      o.response.body.Image? && exists u :: u in store.users && u.id == id && u.avatar == Some(o.response.body.bytes)
  {
    match FindUser(store.users, id)
    case None => Reject(store, NotFound, Empty)
    case Some(i) =>
      var u := store.users[i];
      match u.avatar
      case None => Reject(store, NotFound, Empty)
      case Some(bytes) => Outcome(Response(Ok, Image(bytes)), store)
  }
}
